=== FILE: README.md ===
# GCodeExport encoder model

This project is a Dafny model of the G-code encoder of MOSTMetalCura, a Cura
fork for metal printing. It covers the `GCodeExport` class and the small
`GCodePathConfig` and `RetractionConfig` records from `src/gcodeExport.h`.

The encoder is a deterministic state machine. A `Config` holds the settings
fixed for one export:

- the flavor, with the per-extruder axis letters and the volumetric flag it implies;
- extruder offsets and filament areas;
- switch-retraction settings, the retraction window and the retraction count;
- the welder codes and the metal-printing flag.

A `State` holds what the encoder mutates:

- position, start position and pending Z;
- the running extrusion value and the retraction history;
- the retracted and z-hopped flags;
- the current speed and the prime speed;
- the active extruder, fan speed and recorded temperatures;
- filament totals, print time and the welding flag.

Every operation that writes G-code is a pure function from a state to a
`Step`; the one exception is `Commands.WriteCode`, which only turns a
flavor and a text into a single `Cmd` and has no state. A step holds the new state, the instructions written as an abstract
`Cmd` datatype (`ZeroAxis`, `EMove`, `Move`, `ToolSelect`, `MotorOn`, ...),
and the samples handed to the print-time estimator. Operations that write
nothing return the new `State` (`SetZ`, `ResetStartPosition`,
`UpdateTotalPrintTime`, `ResetTotalPrintTimeAndFilament`) or the new
`Config` (`InitialConfig`, `SetFlavor`, `SetRetractionSettings`).

Modules, in dependency order:

| module | contents |
|---|---|
| `GCodeTypes` | flavors, points, `MaxExtruders` (16), C++ truncating casts and integer division |
| `Commands` | the instruction datatype, estimator samples, line endings |
| `PathConfigs` | `GCodePathConfig`: constructors, setters, the derived extrusion field, `smoothSpeed` |
| `EncoderState` | `Config`, `State`, `Step`, the initial state, flavor and retraction setters |
| `Accounting` | extrusion volume, per-extruder filament use, axis reset, print-time totals |
| `Retraction` | `writeRetraction` with its count/window suppression rule |
| `Motion` | `writeMove`: the BFB motor branch and the E-axis branch with priming, un-hopping and welding |
| `ExtruderSwitch` | `switchExtruder` |
| `Ancillary` | fan, temperature and bed instructions, and `finalize` |
| `Session` | a sequence of requests applied to one state, its invariant, filament conservation over move lists |
| `Scenarios` | concrete encodings worked out exactly |

Two source operations are undefined in some states, and the model makes each
an explicit condition (`Session.Enabled`):

- A non-forced retraction with a retraction count of 1 reads the oldest entry
  of an always-empty history.
- An extruder index must lie below `MaxExtruders`.

Where the source leaves a value uninitialised, the model takes it as a
parameter:

- the pending Z and the welding flag of a new encoder;
- the retraction count, switch speeds, welder-off distance and metal-printing flag of a new encoder's configuration;
- flow and layer thickness of a new path config.

## Model

| member | source | states |
|---|---|---|
| GCodeTypes.Trunc | src/gcodeExport.cpp:219 | the C++ `int()` cast truncates toward zero: below the value for positive inputs, above it for negative ones, within 1 |
| GCodeTypes.TruncDiv | src/gcodeExport.h:68 | the quotient rounds toward zero: the remainder has the dividend's sign and is smaller in magnitude than the divisor |
| Commands.LineEnding | src/gcodeExport.cpp:445-448 | BFB lines end in CR LF, all other flavors in a bare LF |
| Commands.WriteCode | src/gcodeExport.cpp:442-449 | caller text is written verbatim, followed by exactly the flavor's line ending |
| PathConfigs.DefaultPathConfig | src/gcodeExport.h:40 | starts with speed 0, width 0, extrusion 0, not spiralized, no name or retraction; the derived-field invariant already holds |
| PathConfigs.NewPathConfig | src/gcodeExport.h:41 | as the default constructor, but keeps the given name and retraction config |
| PathConfigs.Extrusion | src/gcodeExport.h:87-90 | mm³ per mm is the µm × µm × percent product scaled by 10⁻⁸, and zero exactly when width, thickness or flow is zero |
| PathConfigs.ZeroWidthExtrudesNothing | src/gcodeExport.h:87-90 | zero line width gives zero extrusion whatever flow and thickness hold, so uninitialised factors do not matter at construction |
| PathConfigs.SetSpeed | src/gcodeExport.h:43-46 | only the speed changes; extrusion, width and retraction are untouched and the invariant is kept |
| PathConfigs.SetLineWidth | src/gcodeExport.h:48-52 | stores the width and re-derives extrusion as width × thickness × flow / 100; other fields untouched |
| PathConfigs.SetLayerHeight | src/gcodeExport.h:54-58 | stores the thickness and re-derives extrusion; other fields untouched |
| PathConfigs.SetFlow | src/gcodeExport.h:60-64 | stores the flow and re-derives extrusion; other fields untouched |
| PathConfigs.SettersDetermineExtrusion | src/gcodeExport.h:48-64 | after width, height and flow are all set, in either order shown, extrusion depends only on those three values |
| PathConfigs.ExtrusionNonNegative | src/gcodeExport.h:87-90 | non-negative width, thickness and flow give non-negative extrusion |
| PathConfigs.SmoothSpeed | src/gcodeExport.h:66-69 | only the speed changes; at the last ramp layer it is the path speed, at layer 0 exactly the minimum speed |
| PathConfigs.SmoothSpeedBounds | src/gcodeExport.h:66-69 | within the ramp, with non-negative speeds, the result lies between the two speeds less at most one unit lost to truncation |
| EncoderState.Initial | src/gcodeExport.cpp:12-35 | origin position, start at INT32_MIN, zero extrusion and totals, empty history, extruder 0, fan -1, speeds 1 |
| EncoderState.InitialConfig | src/gcodeExport.cpp:12-35 | RepRap flavor with `E` axes, 14.5 mm switch retraction, zero window, zero offsets, empty codes; valid exactly when every filament area is positive |
| EncoderState.SetFlavor | src/gcodeExport.cpp:63-80 | flavor stored; axis letters and volumetric flag recomputed from it, nothing else changes |
| EncoderState.AxisLettersPerFlavor | src/gcodeExport.cpp:66-71 | Mach3 gives every extruder a distinct axis letter; every other flavor drives `E` on all extruders |
| EncoderState.SetRetractionSettings | src/gcodeExport.cpp:87-94 | switch retraction and window converted from micrometres to mm; speeds and count stored as given; nothing else changes |
| EncoderState.SetZ | src/gcodeExport.cpp:96-99 | only the pending Z changes |
| EncoderState.ResetStartPosition | src/gcodeExport.cpp:115-119 | the start position's XY become INT32_MIN and its Z is kept |
| Accounting.ExtrusionMM3 | src/gcodeExport.cpp:143-153 | volume equals the running value for volumetric flavors; it is zero or positive exactly when the running value is |
| Accounting.TotalFilamentUsed | src/gcodeExport.cpp:156-161 | the folded total, plus the running volume only for the active extruder |
| Accounting.ResetExtrusionValue | src/gcodeExport.cpp:205-215 | no-op at zero or under Makerbot/BFB; otherwise writes G92 and zeroes the value; every extruder's filament use and every value-minus-history difference is preserved |
| Accounting.ResetIdempotent | src/gcodeExport.cpp:205-215 | a second reset in a row writes and changes nothing |
| Accounting.WriteDelay | src/gcodeExport.cpp:217-221 | one dwell of the time in ms truncated toward zero; print time grows by the full time |
| Accounting.UpdateTotalPrintTime | src/gcodeExport.cpp:180-184 | print time grows by exactly the estimator's elapsed time |
| Accounting.ResetTotalPrintTimeAndFilament | src/gcodeExport.cpp:168-178 | print time, the running extrusion value, every extruder's total and filament use, and every temperature become zero; history and position kept |
| Retraction.Record | src/gcodeExport.cpp:396-400 | the new value goes in front; the oldest entry is dropped when the history would reach the count; with count ≥ 1 the bound count − 1 is kept |
| Retraction.WriteRetraction | src/gcodeExport.cpp:363-402 | skipped exactly under BFB, when retracted, with no amount, or when suppressed by the window; otherwise retracted, prime amount added, value recorded, prime speed stored, current speed set to the retraction speed unless volumetric, flavor's retract line and optional z-hop written; no other field changes |
| Retraction.RetractionIsIdempotent | src/gcodeExport.cpp:367-368 | after a retraction, any further retraction request is a no-op |
| Retraction.ForcedRetractionIgnoresWindow | src/gcodeExport.cpp:365-374 | a forced retraction is always defined and leaves the filament retracted iff it was already, or the flavor is not BFB and an amount is set |
| Motion.Rpm | src/gcodeExport.cpp:246-249 | RPM × 4 mm per revolution is the filament fed per minute; zero exactly when rate or speed is zero, positive exactly when both have one sign |
| Motion.MotorOnCode | src/gcodeExport.cpp:262 | the motor-enable code M101, M201, ...: hundreds = extruder + 1, units = 1 |
| Motion.ExtrusionPerMM | src/gcodeExport.cpp:237-241 | volumetric flavors use mm³/mm directly; others divide by the filament area |
| Motion.BfbCommands | src/gcodeExport.cpp:246-281 | motor speed and motor-on only after a retraction, speed line only when the RPM key changes; motor-off only when not retracted; always one coordinate line |
| Motion.BfbSegment | src/gcodeExport.cpp:243-282 | the BFB branch for mm³/mm input: RPM-driven extrusion with automatic retraction |
| Motion.BfbSegmentVolume | src/gcodeExport.cpp:268-272 | a BFB move adds e3 · len mm³ to filament use exactly when the motor turns |
| Motion.ExtendVolume | src/gcodeExport.cpp:323 | growing the value by the per-mm rate times the length grows filament use by e3 · len mm³ |
| Motion.Unhop | src/gcodeExport.cpp:291-295 | a pending z-hop writes one Z move back to the true Z and clears the flag |
| Motion.Unretraction | src/gcodeExport.cpp:298-307 | G11 for volumetric flavors, else an axis move to the running value at prime speed; one estimator sample |
| Motion.PrimedExtrusion | src/gcodeExport.cpp:308-309 | the running value after priming: unchanged unless retracted past 10000 mm³ in a flavor that zeroes its axis, and then 0 |
| Motion.Prime | src/gcodeExport.cpp:296-311 | clears the retracted flag; writes the un-retract line followed by a G92 reset exactly when more than 10000 mm³ have accumulated and the flavor zeroes its axis; when that reset happens the history and totals are exactly those the reset leaves, otherwise they are unchanged |
| Motion.PrimeKeepsAccounts | src/gcodeExport.cpp:296-311 | priming never changes any extruder's filament use, and every history entry keeps its distance to the running value |
| Motion.WeldOn | src/gcodeExport.cpp:313-322 | metal printing switches the welder on, writing its code only if it was off |
| Motion.WeldOff | src/gcodeExport.cpp:328-335 | the welder goes off, writing its code, only on travel longer than the minimum distance while welding |
| Motion.ExtrudeSetup | src/gcodeExport.cpp:288-323 | before an extruding line: not hopped, not retracted, value = primed value + rate · length, filament use before the growth unchanged; history and totals are those the prime left; writes the un-hop, prime and welder-on lines in that order |
| Motion.WriteLine | src/gcodeExport.cpp:340-355 | F only when the speed changes, Z only when it differs from the current Z, E only for drawing outside metal printing; offsets subtracted from XY |
| Motion.LineMove | src/gcodeExport.cpp:283-356 | the E-axis branch: G1 for extruding moves above 1e-6 mm³/mm, G0 otherwise; the line follows exactly the setup instructions (extruding) or the welder-off instruction (travel); an extruding move keeps the setup's history, totals and running value; a travel changes only speed and welding; current speed ends at the move speed |
| Motion.LineMoveFrame | src/gcodeExport.cpp:283-356 | the E-axis branch touches only speed, the retraction and hop flags, the extrusion accounts and the welder; it never sets a z-hop |
| Motion.Arrive | src/gcodeExport.cpp:358-360 | the move-end helper: position and start position become the target and the estimator gets the target sample; nothing else changes |
| Motion.WriteMove | src/gcodeExport.cpp:232-361 | a move to the current position is a no-op; any other ends in its flavor branch's state with position and start position at the target, writes exactly that branch's instructions, and adds a final estimator sample; a z-hop is never created |
| Motion.LineMoveVolume | src/gcodeExport.cpp:285-338 | an E-axis move adds e3 · len mm³ to filament use when extruding and nothing otherwise, across any prime-time reset |
| Motion.MoveAddsVolume | src/gcodeExport.cpp:232-361 | in every flavor, a move that goes somewhere and extrudes adds exactly e3 · len mm³; any other move adds nothing |
| Motion.WriteMoveXY | src/gcodeExport.cpp:223-226 | the XY overload moves at the pending Z |
| ExtruderSwitch.SwitchWithdraw | src/gcodeExport.cpp:419-425 | G10 S1 for volumetric flavors, else an axis move on the outgoing axis by the switch retraction at the switch speed |
| ExtruderSwitch.Handover | src/gcodeExport.cpp:418-429 | reset, withdraw, make `n` active; history and totals are those of the reset; the Mach3 second reset writes nothing |
| ExtruderSwitch.SelectTool | src/gcodeExport.cpp:431-436 | three lines: the incoming extruder's pre-switch code, the tool select (M135 T<n> on Makerbot, T<n> elsewhere), its post-switch code |
| ExtruderSwitch.SelectToolSelectsOnce | src/gcodeExport.cpp:431-436 | exactly one of the three lines selects a tool |
| ExtruderSwitch.ToolChange | src/gcodeExport.cpp:418-439 | a real tool change: new extruder, retracted, Z + 1, history and totals as the reset leaves them, and reset, withdrawal, pre-code, tool select, post-code in that order |
| ExtruderSwitch.SwitchExtruder | src/gcodeExport.cpp:404-440 | no-op for the active extruder; BFB only marks retracted, writing M103 iff not already; otherwise new extruder, retracted, Z + 1, history and totals as the reset leaves them, and reset, withdrawal, pre-code, tool select, post-code in that order |
| ExtruderSwitch.SwitchSelectsOneTool | src/gcodeExport.cpp:431-436 | a tool change writes exactly one tool select; a BFB or same-extruder switch writes none |
| ExtruderSwitch.SwitchConservesFilament | src/gcodeExport.cpp:418-429 | where the encoder zeroes the axis, no extruder's filament use changes across a switch |
| ExtruderSwitch.MakerbotSwitchMovesRunningValue | src/gcodeExport.cpp:418-427 | under Makerbot the running value moves to the incoming extruder's account |
| Ancillary.FanPwm | src/gcodeExport.cpp:460 | duty cycle is speed × 255 / 100 rounded down for non-negative speeds, positive for positive speeds, at most 255 up to 100 % |
| Ancillary.WriteFanCommand | src/gcodeExport.cpp:451-470 | an unchanged speed writes nothing; otherwise one line that turns the fan on iff speed > 0, Makerbot's on/off form exactly under Makerbot |
| Ancillary.FanCommandIdempotent | src/gcodeExport.cpp:453-454 | asking twice for a speed writes it once |
| Ancillary.WriteTemperatureCommand | src/gcodeExport.cpp:472-490 | temperature always recorded; nothing written iff metal printing or an unchanged temperature without wait; T field iff not the active extruder |
| Ancillary.TemperatureRepeats | src/gcodeExport.cpp:474-489 | repeating without wait writes nothing; repeating with wait writes iff not metal printing |
| Ancillary.WriteBedTemperatureCommand | src/gcodeExport.cpp:492-499 | one bed line with the temperature and wait flag on every call; state unchanged |
| Ancillary.BedTemperatureRepeats | src/gcodeExport.cpp:492-499 | a repeated bed request is written again, unlike extruder temperatures |
| Ancillary.TravelKeepsTotals | src/gcodeExport.cpp:326-338 | a move requesting no extrusion keeps totals and running value in every flavor |
| Ancillary.Finalize | src/gcodeExport.cpp:501-514 | the first line switches the fan off (M107, or M127 on Makerbot) unless it already was; the state ends with fan speed 0 and the head 5 mm above the tallest object at the same XY; the end code is the last line; every extruder's filament use unchanged |
| Session.Apply | src/gcodeExport.cpp:232-499 | every defined request keeps the state valid, and only a switch changes the active extruder |
| Session.Run | src/gcodeExport.cpp:232-499 | a session either completes, or stops at a request undefined in the state it reaches; without switches the extruder never changes |
| Session.InitialInv | src/gcodeExport.cpp:12-35 | a new encoder satisfies the session invariant |
| Session.ApplyPreservesInv | src/gcodeExport.cpp:363-402 | every request keeps: history shorter than the count, z-hop only while retracted, no z-hop on BFB |
| Session.RunPreservesInv | src/gcodeExport.cpp:396-400 | the history bound holds after any number of requests |
| Session.RetractionUndefinedOnlyForCountOne | src/gcodeExport.cpp:372-373 | a retraction is undefined iff count is 1 and a non-forced retraction reaches the window test |
| Session.RunOfMoves | src/gcodeExport.cpp:232-361 | a list of moves always completes as the moves applied in order |
| Session.MoveStep | src/gcodeExport.cpp:232-361 | one move ends at its target and adds the volume the list-level test predicts |
| Session.MovesDepositVolume | src/gcodeExport.cpp:232-361 | filament use after a list of moves equals the start value plus the volume read off the list alone |
| Session.DepositedNonNegative | src/gcodeExport.cpp:323 | moves requesting no negative extrusion never deposit a negative volume |
| Session.RunDepositsVolume | src/gcodeExport.cpp:156-161 | a session of moves completes and the active extruder's filament use grows by exactly the deposited volume |
| Scenarios.RetractionWindowExample | src/gcodeExport.cpp:372-400 | count 3, window 1, history [3, 2]: a retraction at 2.5 is skipped; one at 3.5 goes ahead, records [3.5, 3] and writes `G1 F1500 E-1` |
| Scenarios.FirstRepRapMove | src/gcodeExport.cpp:283-356 | the first RepRap extruding move writes one G1 with F3000, no Z and E 0.15 |
| Scenarios.BfbMotorRestartsOnce | src/gcodeExport.cpp:250-264 | after a retraction BFB writes M108, M101 and the move; the next move writes only the coordinates |
| Scenarios.RepRapToolChange | src/gcodeExport.cpp:418-439 | a fresh RepRap switch to extruder 1 writes the withdrawal to -14.5 at F1200, the empty codes and `T1`, and nudges Z to 1 |
| Scenarios.FanExample | src/gcodeExport.cpp:451-470 | 50 % gives `M106 S127`, Makerbot `M126`, 0 % gives `M107` |

## Left out

- Number formatting: `std::fixed`, `setprecision` and the micrometre-to-mm rendering are not modelled. Instructions carry integer micrometres and real extrusion values.
- Motion.BfbCommands: the feed correction by `roundf` on the RPM is not computed. The coordinate line carries the RPM it would be computed from.
- Floating point: doubles and floats are Dafny reals. Rounding error is not modelled.
- Integer width: the 32-bit products `speed*60`, `speed*255` and those in `smoothSpeed` are unbounded. Overflow is not modelled.
- Filament area: the area involves π, so it is a positive real per extruder in the configuration. `setFilamentDiameter` and `getFilamentArea` are therefore not modelled.
- Segment length: `vSizeMM` is outside the encoder source. Every move takes its segment length as a non-negative parameter.
- Print-time estimator: its internals are not part of this model. Each step lists the `plan` samples it hands over, and `UpdateTotalPrintTime` takes the elapsed time as a parameter.
- Finalize: the logging to standard error and the log, and the stream flush, are output only and are not modelled.
- Output stream: `setOutputStream`, `writeComment`, `writeTypeComment`, `writeLayerComment` and `writeLine` are pass-through writers. They are not modelled.
- Plain setters and getters are represented by the `Config` and `State` fields they read or write, not as members. This covers the offsets, the switch codes, the welder codes, the metal-printing flag, the welding flag, position and extruder getters, and `getFlavor`.
- Pre-switch code: `switchExtruder` assigns `current_extruder` before writing `preSwitchExtruderCode[current_extruder]` (src/gcodeExport.cpp:427-431), so the code written is the incoming extruder's, and `ExtruderSwitch.SelectTool` writes that one.
- Makerbot switch accounting: under Makerbot the axis is never zeroed, so a switch moves the running value to the new extruder's account. The model keeps this behaviour and states it in `ExtruderSwitch.MakerbotSwitchMovesRunningValue`.
- Retraction count 1: the source reads the oldest entry of an empty history. The model treats such a retraction as undefined (`Retraction.WindowTestDefined`) rather than giving it a value.
- PathConfigs.SmoothSpeed: requires a non-zero last ramp layer, because the source divides by it and a zero would be undefined behaviour.
- EncoderState.InitialConfig: the constructor's zero filament diameters give area 0, by which a non-volumetric move would divide. The model takes the areas the diameter setter installs as a parameter, and a valid configuration needs them positive.
- Uninitialised values: the pending Z and welding flag of a new encoder, the retraction count, switch speeds, welder-off distance and metal-printing flag of its configuration, and the flow and thickness of a new path config, are parameters.
- `MaxExtruders` is 16. The header that defines it is not part of this model.

=== FILE: accounting.dfy ===
/** Extrusion and filament accounting: the running extrusion value as a
    volume, the per-extruder totals, the periodic extrusion-value reset that
    bounds floating-point drift, and the print-time totals. */
module Accounting {
  import opened GCodeTypes
  import opened Commands
  import opened EncoderState

  /** The running extrusion value as a volume in mm³. */
  function ExtrusionMM3(c: Config, s: State, e: int): (v: real)
    requires ValidConfig(c) && 0 <= e < MaxExtruders
    ensures v == 0.0 <==> s.extrusion == 0.0
    ensures v > 0.0 <==> s.extrusion > 0.0
    ensures c.volumetric ==> v == s.extrusion
  {
    if c.volumetric then s.extrusion else s.extrusion * c.areas[e]
  }

  /** Filament used by extruder `e` so far: its folded total, plus the
      running value when it is the active extruder. */
  function TotalFilamentUsed(c: Config, s: State, e: int): (v: real)
    requires ValidConfig(c) && ValidState(s) && 0 <= e < MaxExtruders
    ensures e != s.extruder ==> v == s.totals[e]
    ensures e == s.extruder ==> v - s.totals[e] == ExtrusionMM3(c, s, e)
  {
    if e == s.extruder then s.totals[e] + ExtrusionMM3(c, s, e) else s.totals[e]
  }

  /** Whether `ResetExtrusionValue` writes anything in this state. */
  predicate ResetApplies(c: Config, s: State) {
    s.extrusion != 0.0 && !ManagesOwnExtrusionZero(c.flavor)
  }

  /** Zeroes the extrusion axis: the running value is folded into the
      active extruder's total and every retraction-history entry is shifted
      by the same amount, so the window test keeps its meaning. */
  function ResetExtrusionValue(c: Config, s: State): (r: Step)
    requires ValidConfig(c) && ValidState(s)
    ensures ValidState(r.st) && r.plans == []
    ensures !ResetApplies(c, s) ==> r == Unchanged(s)
    ensures ResetApplies(c, s) ==> r.st.extrusion == 0.0 && r.cmds == [ZeroAxis(c.axes[s.extruder])]
    ensures forall e :: 0 <= e < MaxExtruders ==> TotalFilamentUsed(c, r.st, e) == TotalFilamentUsed(c, s, e)
    ensures |r.st.history| == |s.history|
    ensures forall i :: 0 <= i < |s.history| ==> r.st.extrusion - r.st.history[i] == s.extrusion - s.history[i]
    ensures r.st == s.(extrusion := r.st.extrusion, history := r.st.history, totals := r.st.totals)
  {
    if ResetApplies(c, s) then
      var e := s.extruder;
      var st := s.(totals := s.totals[e := s.totals[e] + ExtrusionMM3(c, s, e)],
                   history := seq(|s.history|, i requires 0 <= i < |s.history| => s.history[i] - s.extrusion),
                   extrusion := 0.0);
      Step(st, [ZeroAxis(c.axes[e])], [])
    else
      Unchanged(s)
  }

  /** A second reset in a row writes nothing and changes nothing. */
  lemma ResetIdempotent(c: Config, s: State)
    requires ValidConfig(c) && ValidState(s)
    ensures var t := ResetExtrusionValue(c, s).st; ResetExtrusionValue(c, t) == Unchanged(t)
  {
  }

  /** Adds the time a `G4` dwell takes; the dwell is written in whole
      milliseconds, truncated toward zero. */
  function WriteDelay(s: State, seconds: real): (r: Step)
    ensures r.st == s.(printTime := s.printTime + seconds) && r.plans == []
    ensures |r.cmds| == 1 && r.cmds[0].Dwell?
    ensures var ms := r.cmds[0].ms as real; 0.0 <= seconds ==> ms <= seconds * 1000.0 < ms + 1.0
    ensures var ms := r.cmds[0].ms as real; seconds <= 0.0 ==> ms - 1.0 < seconds * 1000.0 <= ms
  {
    Step(s.(printTime := s.printTime + seconds), [Dwell(Trunc(seconds * 1000.0))], [])
  }

  /** Adds the estimator's elapsed time to the print-time total. `elapsed`
      stands for what the estimator's `calculate` returns. */
  function UpdateTotalPrintTime(s: State, elapsed: real): (r: State)
    ensures r.printTime - s.printTime == elapsed
    ensures r == s.(printTime := r.printTime)
  {
    s.(printTime := s.printTime + elapsed)
  }

  /** Clears the print-time and filament totals, the recorded temperatures
      and the running extrusion value; the retraction history is kept. */
  function ResetTotalPrintTimeAndFilament(c: Config, s: State): (r: State)
    requires ValidConfig(c) && ValidState(s)
    ensures ValidState(r) && r.printTime == 0.0
    ensures forall e :: 0 <= e < MaxExtruders ==> TotalFilamentUsed(c, r, e) == 0.0 && r.temps[e] == 0
    ensures r.extrusion == 0.0 && forall e :: 0 <= e < MaxExtruders ==> r.totals[e] == 0.0
    ensures r.history == s.history && r.pos == s.pos && r.extruder == s.extruder
    ensures r == s.(printTime := 0.0, totals := r.totals, temps := r.temps, extrusion := r.extrusion)
  {
    s.(printTime := 0.0,
       totals := seq(MaxExtruders, _ => 0.0),
       temps := seq(MaxExtruders, _ => 0),
       extrusion := 0.0)
  }
}

=== FILE: ancillary.dfy ===
/** Fan and temperature instructions, and the end-of-print sequence. */
module Ancillary {
  import opened GCodeTypes
  import opened Commands
  import opened EncoderState
  import opened Accounting
  import opened Motion

  /** Fan duty cycle (0–255) for a speed given in percent, divided as C++
      integers divide. */
  function FanPwm(speed: int): (pwm: int)
    ensures 0 <= speed ==> pwm * 100 <= speed * 255 < (pwm + 1) * 100
    ensures 0 < speed ==> 0 < pwm
    ensures speed <= 100 ==> pwm <= 255
  {
    TruncDiv(speed * 255, 100)
  }

  /** Whether an instruction turns the fan on. */
  predicate TurnsFanOn(cmd: Cmd) {
    cmd == MakerbotFan(true) || (cmd.FanSpeed? && cmd.pwm > 0)
  }

  /** Sets the fan speed in percent. Repeating the current speed writes
      nothing; Makerbot can only switch the fan on or off. */
  function WriteFanCommand(c: Config, s: State, speed: int): (r: Step)
    ensures r.plans == [] && r.st == s.(fanSpeed := speed)
    ensures s.fanSpeed == speed ==> r.cmds == []
    ensures s.fanSpeed != speed ==>
      && |r.cmds| == 1
      && (TurnsFanOn(r.cmds[0]) <==> speed > 0)
      && (r.cmds[0].MakerbotFan? <==> c.flavor == Makerbot)
      && (r.cmds[0].FanSpeed? ==> r.cmds[0].pwm == FanPwm(speed))
      && (c.flavor != Makerbot && speed <= 0 ==> r.cmds[0] == FanOff)
  {
    if s.fanSpeed == speed then
      Unchanged(s)
    else
      var cmd :=
        if speed > 0 then (if c.flavor == Makerbot then MakerbotFan(true) else FanSpeed(FanPwm(speed)))
        else (if c.flavor == Makerbot then MakerbotFan(false) else FanOff);
      Step(s.(fanSpeed := speed), [cmd], [])
  }

  /** Asking twice for the same fan speed writes it once. */
  lemma FanCommandIdempotent(c: Config, s: State, speed: int)
    ensures var t := WriteFanCommand(c, s, speed).st; WriteFanCommand(c, t, speed) == Unchanged(t)
  {
  }

  /** Sets (and with `wait`, waits for) the temperature of extruder `e`.
      Without `wait` an unchanged temperature is not written again; the
      `T` field appears only for an extruder other than the active one.
      Metal printing writes no temperature instructions but still records
      the requested value. */
  function WriteTemperatureCommand(c: Config, s: State, e: int, t: int, wait: bool): (r: Step)
    requires ValidState(s) && 0 <= e < MaxExtruders
    ensures ValidState(r.st) && r.plans == [] && r.st == s.(temps := s.temps[e := t])
    ensures |r.cmds| <= 1
    ensures r.cmds == [] <==> c.metalPrinting || (!wait && s.temps[e] == t)
    ensures r.cmds != [] ==>
      && r.cmds[0].Temperature? && r.cmds[0].wait == wait && r.cmds[0].celsius == t
      && (r.cmds[0].toolField.None? <==> e == s.extruder)
      && (r.cmds[0].toolField.Some? ==> r.cmds[0].toolField.value == e)
  {
    var st := s.(temps := s.temps[e := t]);
    if c.metalPrinting || (!wait && s.temps[e] == t) then
      Step(st, [], [])
    else
      Step(st, [Temperature(wait, if e != s.extruder then Some(e) else None, t)], [])
  }

  /** After a temperature is set, setting it again without waiting writes
      nothing, while waiting for it always writes (outside metal printing). */
  lemma TemperatureRepeats(c: Config, s: State, e: int, t: int, wait: bool)
    requires ValidState(s) && 0 <= e < MaxExtruders
    ensures var u := WriteTemperatureCommand(c, s, e, t, wait).st;
      && WriteTemperatureCommand(c, u, e, t, false).cmds == []
      && (WriteTemperatureCommand(c, u, e, t, true).cmds != [] <==> !c.metalPrinting)
  {
  }

  /** Bed temperature is written on every call and is not remembered. */
  function WriteBedTemperatureCommand(s: State, t: int, wait: bool): (r: Step)
    ensures r.st == s && r.plans == []
    ensures |r.cmds| == 1 && r.cmds[0].BedTemperature?
    ensures r.cmds[0].celsius == t && r.cmds[0].wait == wait
  {
    Step(s, [BedTemperature(wait, t)], [])
  }

  /** Unlike extruder temperatures, bed temperatures are not de-duplicated:
      repeating a request writes it again. */
  lemma BedTemperatureRepeats(s: State, t: int, wait: bool)
    ensures var once := WriteBedTemperatureCommand(s, t, wait);
      WriteBedTemperatureCommand(once.st, t, wait).cmds == once.cmds == [BedTemperature(wait, t)]
  {
  }

  /** Height above the tallest object to which the head is lifted at the end. */
  const FinalLift: int := 5000

  /** End of print: fan off, lift the head straight up `FinalLift`
      micrometres above the tallest object, then the end code. The lift
      deposits nothing, so every extruder's filament use is unchanged. */
  function Finalize(c: Config, s: State, maxObjectHeight: int, moveSpeed: int, endCode: string): (r: Step)
    requires ValidConfig(c) && ValidState(s)
    ensures ValidState(r.st) && r.st.extruder == s.extruder && r.st.temps == s.temps
    ensures r.st.fanSpeed == 0 && r.st.zPos == maxObjectHeight + FinalLift
    ensures r.st.pos == Point3(s.pos.x, s.pos.y, maxObjectHeight + FinalLift)
    ensures |r.cmds| > 0 && r.cmds[|r.cmds| - 1] == WriteCode(c.flavor, endCode)
    ensures s.fanSpeed != 0 ==> r.cmds[0] == (if c.flavor == Makerbot then MakerbotFan(false) else FanOff)
    ensures |r.st.history| == |s.history| && (r.st.isZHopped ==> s.isZHopped)
    ensures c.flavor != BFB && r.st.isZHopped ==> r.st.isRetracted == s.isRetracted
    ensures forall e :: 0 <= e < MaxExtruders ==> TotalFilamentUsed(c, r.st, e) == TotalFilamentUsed(c, s, e)
  {
    var fan := WriteFanCommand(c, s, 0);
    var top := maxObjectHeight + FinalLift;
    var raised := SetZ(fan.st, top);
    var len := Mm(Abs(top - raised.pos.z));
    var lift := WriteMove(c, raised, raised.pos.x, raised.pos.y, top, moveSpeed, 0.0, len);
    TravelKeepsTotals(c, raised, raised.pos.x, raised.pos.y, top, moveSpeed, len);
    Step(lift.st, fan.cmds + lift.cmds + [WriteCode(c.flavor, endCode)], fan.plans + lift.plans)
  }

  /** A move that requests no extrusion leaves the filament totals and the
      running value alone, in every flavor. */
  lemma TravelKeepsTotals(c: Config, s: State, x: int, y: int, z: int, speed: int, len: real)
    requires ValidConfig(c) && ValidState(s) && 0.0 <= len
    ensures var r := WriteMove(c, s, x, y, z, speed, 0.0, len).st;
      r.totals == s.totals && r.extrusion == s.extrusion
  {
    if s.pos != Point3(x, y, z) {
      if c.flavor == BFB {
        var b := BfbSegment(c, s, x, y, z, speed, 0.0, len);
        assert ExtrusionPerMM(c, s, 0.0) == 0.0;
        assert BfbBranch(c, s, x, y, z, speed, 0.0, len, b);
      } else {
        var l := LineMove(c, s, x, y, z, speed, 0.0, len);
        assert l.st.totals == s.totals;
      }
    }
  }
}

=== FILE: commands.dfy ===
/** The instructions the encoder writes, as an abstract datatype: one
    constructor per line shape, with the numeric fields it carries.
    Coordinates stay in integer micrometres and extrusion values in the
    encoder's own units; their decimal rendering is not modelled. */
module Commands {
  import opened GCodeTypes

  /** A value for one extrusion axis: the axis letter and the absolute amount. */
  datatype EField = EField(axis: char, amount: real)

  datatype Cmd =
    | ZeroAxis(axis: char)                    // G92 <axis>0
    | Dwell(ms: int)                          // G4 P<ms>
    | RpmSet(rpm: real)                       // M108 S<rpm>              (BFB)
    | MotorOn(code: int)                      // M101, M201, ...          (BFB)
    | MotorOff                                // M103                     (BFB)
    | BfbMove(x: int, y: int, z: int, speed: int, rpmCorrection: Option<real>)
      // G1 X Y Z F: F is speed·60, scaled by the rpm rounding ratio when a correction rpm is present
    | ZMove(z: int)                           // G1 Z<z>
    | Unretract                               // G11
    | Retract                                 // G10
    | SwitchRetract                           // G10 S1
    | EMove(feed: int, e: EField)             // G1 F<feed> <axis><amount>
    | Move(draw: bool, fField: Option<int>, x: int, y: int, zField: Option<int>, eField: Option<EField>)
      // G1 when draw, else G0, with the optional F, Z and extrusion fields
    | ToolSelect(makerbot: bool, tool: int)   // M135 T<n> for Makerbot, T<n> otherwise
    | FanSpeed(pwm: int)                      // M106 S<pwm>
    | FanOff                                  // M107
    | MakerbotFan(on: bool)                   // M126 T0 / M127 T0
    | Temperature(wait: bool, toolField: Option<int>, celsius: int)  // M109 / M104 [T<n>] S<t>
    | BedTemperature(wait: bool, celsius: int)                  // M190 / M140 S<t>
    | Raw(text: string)                       // text written verbatim

  /** One `plan` call on the print-time estimator: position (micrometres),
      extrusion value and feed rate. */
  datatype Sample = Sample(x: int, y: int, z: int, e: real, feed: real)

  /** BFB machines expect carriage-return line feeds; all others a bare line feed. */
  function LineEnding(f: Flavor): (s: string)
    ensures |s| >= 1 && s[|s| - 1] == '\n'
    ensures f == BFB <==> |s| == 2
    ensures f == BFB ==> s == "\r\n"
    ensures f != BFB ==> s == "\n"
  {
    if f == BFB then "\r\n" else "\n"
  }

  /** Caller-supplied text written as one line with the flavor's line ending. */
  function WriteCode(f: Flavor, text: string): (c: Cmd)
    ensures c.Raw? && |c.text| > |text| && text <= c.text
    ensures f == BFB <==> c.text[|text|..] == "\r\n"
    ensures f != BFB <==> c.text[|text|..] == "\n"
  {
    assert (text + LineEnding(f))[|text|..] == LineEnding(f);
    Raw(text + LineEnding(f))
  }

  /** Number of tool-select instructions in a stream. */
  function ToolSelects(cmds: seq<Cmd>): nat
  {
    if cmds == [] then 0
    else (if cmds[0].ToolSelect? then 1 else 0) + ToolSelects(cmds[1..])
  }

  lemma {:induction false} ToolSelectsAppend(a: seq<Cmd>, b: seq<Cmd>)
    ensures ToolSelects(a + b) == ToolSelects(a) + ToolSelects(b)
  {
    if a == [] {
      assert a + b == b;
    } else {
      assert (a + b)[0] == a[0];
      assert (a + b)[1..] == a[1..] + b;
      ToolSelectsAppend(a[1..], b);
    }
  }
}

=== FILE: encoder_state.dfy ===
/** The encoder's fixed configuration and its mutable printer state, the
    flavor and retraction-settings setters, and the freshly constructed
    state. Every operation of the encoder is a function from a `State` to a
    `Step`: the new state, the instructions written, and the samples handed
    to the print-time estimator. */
module EncoderState {
  import opened GCodeTypes
  import opened Commands

  /** Settings fixed for one export session. Per-extruder tables hold
      `MaxExtruders` entries; `areas` are filament cross-sections in mm². */
  datatype Config = Config(
    flavor: Flavor,
    axes: seq<char>,
    volumetric: bool,
    offsets: seq<Point2>,
    areas: seq<real>,
    preSwitch: seq<string>,
    postSwitch: seq<string>,
    switchRetraction: real,
    switchRetractionSpeed: int,
    switchPrimeSpeed: int,
    window: real,
    countMax: int,
    welderOn: string,
    welderOff: string,
    minDistWelderOff: real,
    metalPrinting: bool)

  /** The extrusion-axis letter of extruder `n`: Mach3 gives each extruder
      its own axis starting at `A`, every other flavor uses `E`. */
  function AxisLetter(f: Flavor, n: int): char
    requires 0 <= n < MaxExtruders
  {
    if f == Mach3 then ('A' as int + n) as char else 'E'
  }

  /** The flavor-derived tables agree with the flavor, as `SetFlavor` leaves them. */
  ghost predicate FlavorTables(c: Config) {
    && |c.axes| == MaxExtruders
    && (forall n :: 0 <= n < MaxExtruders ==> c.axes[n] == AxisLetter(c.flavor, n))
    && c.volumetric == IsVolumetric(c.flavor)
  }

  ghost predicate ValidConfig(c: Config) {
    && FlavorTables(c)
    && |c.offsets| == MaxExtruders
    && |c.areas| == MaxExtruders
    && (forall n :: 0 <= n < MaxExtruders ==> c.areas[n] > 0.0)
    && |c.preSwitch| == MaxExtruders
    && |c.postSwitch| == MaxExtruders
  }

  /** Selects the flavor and recomputes the axis letters and the volumetric flag. */
  function SetFlavor(c: Config, f: Flavor): (r: Config)
    ensures r.flavor == f && FlavorTables(r)
    ensures r.volumetric <==> f == UltiGCode || f == RepRapVolumetric
    ensures r == c.(flavor := f, axes := r.axes, volumetric := r.volumetric)
  {
    c.(flavor := f,
       axes := seq(MaxExtruders, n requires 0 <= n < MaxExtruders => AxisLetter(f, n)),
       volumetric := IsVolumetric(f))
  }

  /** Under Mach3 no two extruders share an axis letter; under every other
      flavor all extruders drive `E`. */
  lemma AxisLettersPerFlavor(c: Config)
    requires FlavorTables(c)
    ensures c.flavor == Mach3 ==>
      forall i, j :: 0 <= i < j < MaxExtruders ==> c.axes[i] != c.axes[j]
    ensures c.flavor != Mach3 ==>
      forall i :: 0 <= i < MaxExtruders ==> c.axes[i] == 'E'
  {
    if c.flavor == Mach3 {
      forall i, j | 0 <= i < j < MaxExtruders
        ensures c.axes[i] != c.axes[j]
      {
        assert c.axes[i] == AxisLetter(Mach3, i) && c.axes[j] == AxisLetter(Mach3, j);
        assert c.axes[i] as int == 'A' as int + i;
      }
    }
  }

  /** Stores the switch-retraction and window settings; the switch
      retraction and the window arrive in micrometres and are kept in mm. */
  function SetRetractionSettings(c: Config, switchRetraction: int, switchRetractionSpeed: int,
                                 switchPrimeSpeed: int, window: int, countMax: int): (r: Config)
    ensures r.switchRetraction * 1000.0 == switchRetraction as real
    ensures r.window * 1000.0 == window as real
    ensures r.switchRetractionSpeed == switchRetractionSpeed && r.switchPrimeSpeed == switchPrimeSpeed
    ensures r.countMax == countMax
    ensures r == c.(switchRetraction := r.switchRetraction, window := r.window,
                    switchRetractionSpeed := switchRetractionSpeed, switchPrimeSpeed := switchPrimeSpeed,
                    countMax := countMax)
    ensures ValidConfig(c) ==> ValidConfig(r)
  {
    c.(switchRetraction := Mm(switchRetraction),
       switchRetractionSpeed := switchRetractionSpeed,
       switchPrimeSpeed := switchPrimeSpeed,
       window := Mm(window),
       countMax := countMax)
  }

  /** The configuration a freshly constructed encoder holds: RepRap flavor, a
      14.5 mm switch retraction, no retraction window, no extruder offsets and
      empty switch and welder codes. The constructor leaves the retraction
      count, the switch speeds, the welder-off distance and the metal-printing
      flag uninitialised, so they are parameters. Its zero filament diameters
      give area 0, by which a move would divide; `areas` stands for the
      areas the diameter setter installs before the first move. */
  function InitialConfig(areas: seq<real>, countMax: int, switchRetractionSpeed: int, switchPrimeSpeed: int,
                         minDistWelderOff: real, metalPrinting: bool): (c: Config)
    ensures c.flavor == RepRap && !c.volumetric && FlavorTables(c)
    ensures forall n :: 0 <= n < MaxExtruders ==> c.axes[n] == 'E'
    ensures c.switchRetraction == 14.5 && c.window == 0.0
    ensures |c.offsets| == MaxExtruders && forall n :: 0 <= n < MaxExtruders ==> c.offsets[n] == Point2(0, 0)
    ensures |c.preSwitch| == MaxExtruders && forall n :: 0 <= n < MaxExtruders ==> c.preSwitch[n] == ""
    ensures |c.postSwitch| == MaxExtruders && forall n :: 0 <= n < MaxExtruders ==> c.postSwitch[n] == ""
    ensures c.welderOn == "" && c.welderOff == "" && c.areas == areas
    ensures c.countMax == countMax && c.minDistWelderOff == minDistWelderOff && c.metalPrinting == metalPrinting
    ensures c.switchRetractionSpeed == switchRetractionSpeed && c.switchPrimeSpeed == switchPrimeSpeed
    ensures ValidConfig(c) <==> |areas| == MaxExtruders && forall n :: 0 <= n < MaxExtruders ==> areas[n] > 0.0
  {
    var blank := Config(RepRap, [], false, seq(MaxExtruders, _ => Point2(0, 0)), areas,
                        seq(MaxExtruders, _ => ""), seq(MaxExtruders, _ => ""),
                        14.5, switchRetractionSpeed, switchPrimeSpeed, 0.0, countMax,
                        "", "", minDistWelderOff, metalPrinting);
    SetFlavor(blank, RepRap)
  }

  /** The mutable printer state. `history` holds the extrusion values of
      past retractions, most recent first. */
  datatype State = State(
    pos: Point3,
    start: Point3,
    zPos: int,
    extrusion: real,
    history: seq<real>,
    isRetracted: bool,
    isZHopped: bool,
    currentSpeed: int,
    primeSpeed: int,
    extruder: int,
    fanSpeed: int,
    temps: seq<int>,
    totals: seq<real>,
    printTime: real,
    isWelding: bool)

  ghost predicate ValidState(s: State) {
    && 0 <= s.extruder < MaxExtruders
    && |s.temps| == MaxExtruders
    && |s.totals| == MaxExtruders
  }

  /** Result of one operation: new state, instructions written, estimator samples. */
  datatype Step = Step(st: State, cmds: seq<Cmd>, plans: seq<Sample>)

  /** Nothing written, nothing planned, nothing changed. */
  function Unchanged(s: State): Step {
    Step(s, [], [])
  }

  /** `a` followed by `b`, where `b` starts from the state `a` left. */
  function Chain(a: Step, b: Step): Step {
    Step(b.st, a.cmds + b.cmds, a.plans + b.plans)
  }

  /** The state of a freshly constructed encoder. The source never
      initialises the pending Z or the welding flag before their setters run;
      `zPos` and `isWelding` stand for whatever they hold. */
  function Initial(zPos: int, isWelding: bool): (s: State)
    ensures ValidState(s)
    ensures s.pos == Point3(0, 0, 0) && s.start == Point3(Int32Min, Int32Min, 0)
    ensures s.extrusion == 0.0 && s.history == [] && !s.isRetracted && !s.isZHopped
    ensures s.extruder == 0 && s.fanSpeed == -1 && s.currentSpeed == 1 && s.primeSpeed == 1
    ensures s.printTime == 0.0
    ensures forall n :: 0 <= n < MaxExtruders ==> s.temps[n] == 0 && s.totals[n] == 0.0
  {
    State(Point3(0, 0, 0), Point3(Int32Min, Int32Min, 0), zPos, 0.0, [], false, false,
          1, 1, 0, -1, seq(MaxExtruders, _ => 0), seq(MaxExtruders, _ => 0.0), 0.0, isWelding)
  }

  /** Sets the pending Z used by moves given in XY only. */
  function SetZ(s: State, z: int): (r: State)
    ensures r.zPos == z && r == s.(zPos := z)
  {
    s.(zPos := z)
  }

  /** Forgets the start position in XY; Z is kept. */
  function ResetStartPosition(s: State): (r: State)
    ensures r.start == Point3(Int32Min, Int32Min, s.start.z)
    ensures r == s.(start := r.start)
  {
    s.(start := s.start.(x := Int32Min, y := Int32Min))
  }
}

=== FILE: extruder_switch.dfy ===
/** Switching the active extruder. BFB machines only stop the motor. Every
    other flavor zeroes the extrusion axis, withdraws the outgoing filament
    by the switch retraction, selects the new tool between its pre- and
    post-switch code, and nudges the remembered Z so that the next move
    writes Z again. */
module ExtruderSwitch {
  import opened GCodeTypes
  import opened Commands
  import opened EncoderState
  import opened Accounting

  /** The withdrawal written before a tool change: firmware `G10 S1` for
      volumetric flavors, otherwise an extrusion-axis move on the outgoing
      extruder's axis at the switch-retraction speed. */
  function SwitchWithdraw(c: Config, s: State): (r: Step)
    requires ValidConfig(c) && ValidState(s)
    ensures r.plans == [] && |r.cmds| == 1
    ensures r.st == s.(currentSpeed := r.st.currentSpeed)
    ensures r.st.currentSpeed == if IsVolumetric(c.flavor) then s.currentSpeed else c.switchRetractionSpeed
    ensures r.cmds[0].SwitchRetract? <==> IsVolumetric(c.flavor)
    ensures r.cmds[0].EMove? ==>
      && r.cmds[0].feed == c.switchRetractionSpeed * 60
      && r.cmds[0].e.axis == c.axes[s.extruder]
      && s.extrusion - r.cmds[0].e.amount == c.switchRetraction
    ensures !IsVolumetric(c.flavor) ==>
      r.cmds[0] == EMove(c.switchRetractionSpeed * 60, EField(c.axes[s.extruder], s.extrusion - c.switchRetraction))
  {
    if IsVolumetric(c.flavor) then
      Step(s, [SwitchRetract], [])
    else
      Step(s.(currentSpeed := c.switchRetractionSpeed),
           [EMove(c.switchRetractionSpeed * 60, EField(c.axes[s.extruder], s.extrusion - c.switchRetraction))], [])
  }

  /** The three lines that select tool `n`: its pre-switch code, the one
      tool-select line (`M135 T<n>` on Makerbot, `T<n>` elsewhere), and its
      post-switch code. */
  function SelectTool(c: Config, n: int): (r: seq<Cmd>)
    requires ValidConfig(c) && 0 <= n < MaxExtruders
    ensures |r| == 3
    ensures r[1] == ToolSelect(c.flavor == Makerbot, n)
    ensures r[0] == Raw(c.preSwitch[n] + LineEnding(c.flavor)) && r[2] == Raw(c.postSwitch[n] + LineEnding(c.flavor))
  {
    [WriteCode(c.flavor, c.preSwitch[n]), ToolSelect(c.flavor == Makerbot, n), WriteCode(c.flavor, c.postSwitch[n])]
  }

  /** Of the three lines, only the middle one selects a tool. */
  lemma SelectToolSelectsOnce(c: Config, n: int)
    requires ValidConfig(c) && 0 <= n < MaxExtruders
    ensures ToolSelects(SelectTool(c, n)) == 1
  {
    var r := SelectTool(c, n);
    assert r[1..][1..][1..] == [];
    assert ToolSelects(r[1..][1..]) == 0;
  }

  /** Whether the switch does anything beyond stopping a BFB motor. */
  predicate ChangesTool(c: Config, s: State, n: int) {
    n != s.extruder && c.flavor != BFB
  }

  /** Zeroes the axis, withdraws the outgoing filament and hands over to
      extruder `n`; Mach3 zeroes the new extruder's own axis as well, which
      never writes anything because the running value is already zero. */
  function Handover(c: Config, s: State, n: int): (r: Step)
    requires ValidConfig(c) && ValidState(s) && c.flavor != BFB && 0 <= n < MaxExtruders
    ensures ValidState(r.st) && r.plans == [] && r.st.extruder == n
    ensures r.st.extrusion == (if ManagesOwnExtrusionZero(c.flavor) then s.extrusion else 0.0)
    ensures r.st.totals == ResetExtrusionValue(c, s).st.totals && |r.st.history| == |s.history|
    ensures r.st.history == ResetExtrusionValue(c, s).st.history
    ensures r.st.currentSpeed == (if IsVolumetric(c.flavor) then s.currentSpeed else c.switchRetractionSpeed)
    ensures r.st == s.(extruder := n, currentSpeed := r.st.currentSpeed, extrusion := r.st.extrusion,
                       history := r.st.history, totals := r.st.totals)
    ensures r.cmds == ResetExtrusionValue(c, s).cmds + SwitchWithdraw(c, ResetExtrusionValue(c, s).st).cmds
  {
    var reset := ResetExtrusionValue(c, s);
    var withdraw := SwitchWithdraw(c, reset.st);
    var u := withdraw.st.(extruder := n);
    var again := if c.flavor == Mach3 then ResetExtrusionValue(c, u) else Unchanged(u);
    assert again == Unchanged(u);
    Chain(Chain(reset, withdraw), again)
  }

  /** Makes `n` the active extruder. The source indexes the new extruder's
      switch code, so `n` must be a valid extruder whenever a tool change is
      written. */
  function SwitchExtruder(c: Config, s: State, n: int): (r: Step)
    requires ValidConfig(c) && ValidState(s)
    requires ChangesTool(c, s, n) ==> 0 <= n < MaxExtruders
    ensures ValidState(r.st) && r.plans == []
    ensures n == s.extruder ==> r == Unchanged(s)
    ensures n != s.extruder && c.flavor == BFB ==>
      && r.st == s.(isRetracted := true)
      && r.cmds == if s.isRetracted then [] else [MotorOff]
    ensures ChangesTool(c, s, n) ==>
      && r.st.extruder == n && r.st.isRetracted
      && r.st.pos == s.pos.(z := s.pos.z + 1)
      && r.st.extrusion == (if ManagesOwnExtrusionZero(c.flavor) then s.extrusion else 0.0)
      && r.st.totals == ResetExtrusionValue(c, s).st.totals && |r.st.history| == |s.history|
      && r.st.history == ResetExtrusionValue(c, s).st.history
      && r.st.currentSpeed == (if IsVolumetric(c.flavor) then s.currentSpeed else c.switchRetractionSpeed)
      && r.st == s.(extruder := n, isRetracted := true, pos := r.st.pos, currentSpeed := r.st.currentSpeed,
                    extrusion := r.st.extrusion, history := r.st.history, totals := r.st.totals)
      && |r.cmds| == (if ResetApplies(c, s) then 5 else 4)
      && (ResetApplies(c, s) ==> r.cmds[0] == ZeroAxis(c.axes[s.extruder]))
      && r.cmds[|r.cmds| - 4] == SwitchWithdraw(c, ResetExtrusionValue(c, s).st).cmds[0]
      && r.cmds[|r.cmds| - 3..] == SelectTool(c, n)
  {
    if n == s.extruder then
      Unchanged(s)
    else if c.flavor == BFB then
      Step(s.(isRetracted := true), if s.isRetracted then [] else [MotorOff], [])
    else
      ToolChange(c, s, n)
  }

  /** A real tool change: hand over, select the new tool, and bump the
      recorded z by 1 so that the next move writes its Z again, since the
      switch code may have moved the head. */
  function ToolChange(c: Config, s: State, n: int): (r: Step)
    requires ValidConfig(c) && ValidState(s) && c.flavor != BFB && 0 <= n < MaxExtruders
    ensures ValidState(r.st) && r.plans == []
    ensures r.st.extruder == n && r.st.isRetracted
      && r.st.pos == s.pos.(z := s.pos.z + 1)
      && r.st.extrusion == (if ManagesOwnExtrusionZero(c.flavor) then s.extrusion else 0.0)
      && r.st.totals == ResetExtrusionValue(c, s).st.totals && |r.st.history| == |s.history|
      && r.st.history == ResetExtrusionValue(c, s).st.history
      && r.st.currentSpeed == (if IsVolumetric(c.flavor) then s.currentSpeed else c.switchRetractionSpeed)
      && r.st == s.(extruder := n, isRetracted := true, pos := r.st.pos, currentSpeed := r.st.currentSpeed,
                    extrusion := r.st.extrusion, history := r.st.history, totals := r.st.totals)
      && |r.cmds| == (if ResetApplies(c, s) then 5 else 4)
      && (ResetApplies(c, s) ==> r.cmds[0] == ZeroAxis(c.axes[s.extruder]))
      && r.cmds[|r.cmds| - 4] == SwitchWithdraw(c, ResetExtrusionValue(c, s).st).cmds[0]
      && r.cmds[|r.cmds| - 3..] == SelectTool(c, n)
  {
    var h := Handover(c, s, n);
    var cmds := h.cmds + SelectTool(c, n);
    assert cmds[|cmds| - 3..] == SelectTool(c, n);
    Step(h.st.(isRetracted := true, pos := h.st.pos.(z := h.st.pos.z + 1)), cmds, [])
  }

  /** A tool change writes exactly one tool-select line; a BFB switch or a
      switch to the active extruder writes none. */
  lemma SwitchSelectsOneTool(c: Config, s: State, n: int)
    requires ValidConfig(c) && ValidState(s)
    requires ChangesTool(c, s, n) ==> 0 <= n < MaxExtruders
    ensures ToolSelects(SwitchExtruder(c, s, n).cmds) == if ChangesTool(c, s, n) then 1 else 0
  {
    var r := SwitchExtruder(c, s, n);
    if ChangesTool(c, s, n) {
      var h := Handover(c, s, n);
      var sel := SelectTool(c, n);
      assert r.cmds == h.cmds + sel;
      ToolSelectsAppend(h.cmds, sel);
      var reset := ResetExtrusionValue(c, s);
      assert h.cmds == reset.cmds + SwitchWithdraw(c, reset.st).cmds;
      assert forall i :: 0 <= i < |h.cmds| ==> !h.cmds[i].ToolSelect?;
      NoToolSelects(h.cmds);
      SelectToolSelectsOnce(c, n);
    } else if c.flavor == BFB && n != s.extruder && !s.isRetracted {
      assert r.cmds[1..] == [];
    }
  }

  /** Zeroing, withdrawal and motor lines are never tool selects. */
  lemma {:induction false} NoToolSelects(cmds: seq<Cmd>)
    requires forall i :: 0 <= i < |cmds| ==> !cmds[i].ToolSelect?
    ensures ToolSelects(cmds) == 0
  {
    if cmds != [] {
      NoToolSelects(cmds[1..]);
    }
  }

  /** Where the flavor lets the encoder zero the axis, a switch conserves
      every extruder's filament use: the running value is folded into the
      outgoing extruder's total before the new extruder takes over. */
  lemma SwitchConservesFilament(c: Config, s: State, n: int, e: int)
    requires ValidConfig(c) && ValidState(s)
    requires ChangesTool(c, s, n) ==> 0 <= n < MaxExtruders
    requires !ManagesOwnExtrusionZero(c.flavor) && 0 <= e < MaxExtruders
    ensures TotalFilamentUsed(c, SwitchExtruder(c, s, n).st, e) == TotalFilamentUsed(c, s, e)
  {
    if n != s.extruder {
      var t := ResetExtrusionValue(c, s).st;
      var r := SwitchExtruder(c, s, n).st;
      assert TotalFilamentUsed(c, t, e) == TotalFilamentUsed(c, s, e);
      assert r.totals == t.totals && r.extrusion == 0.0 && t.extrusion == 0.0;
    }
  }

  /** Under Makerbot the axis is never zeroed, so a switch hands the running
      value to the new extruder: the outgoing extruder's filament use drops
      back to its folded total and the incoming one gains the running volume
      at its own filament area. */
  lemma MakerbotSwitchMovesRunningValue(c: Config, s: State, n: int)
    requires ValidConfig(c) && ValidState(s) && c.flavor == Makerbot
    requires 0 <= n < MaxExtruders && n != s.extruder
    ensures var r := SwitchExtruder(c, s, n).st;
      && TotalFilamentUsed(c, r, s.extruder) == s.totals[s.extruder]
      && TotalFilamentUsed(c, r, n) == s.totals[n] + s.extrusion * c.areas[n]
  {
  }
}

=== FILE: gcode_types.dfy ===
/** Vocabulary shared by the whole encoder: the firmware dialects, integer
    points in micrometres, the extruder count, and the two C++ integer
    conversions the encoder relies on (truncating casts and divisions). */
module GCodeTypes {

  datatype Option<T> = None | Some(value: T)

  /** The G-code dialects the encoder can write. */
  datatype Flavor = RepRap | UltiGCode | RepRapVolumetric | BFB | Makerbot | Mach3

  /** Number of slots in every per-extruder table. */
  const MaxExtruders: int := 16

  /** `INT32_MIN`, the "unknown" start coordinate. */
  const Int32Min: int := -0x8000_0000

  datatype Point2 = Point2(x: int, y: int)
  datatype Point3 = Point3(x: int, y: int, z: int)

  /** Volumetric dialects count extrusion in mm³ and use firmware retraction. */
  predicate IsVolumetric(f: Flavor) {
    match f
    case UltiGCode | RepRapVolumetric => true
    case RepRap | BFB | Makerbot | Mach3 => false
  }

  /** Dialects whose firmware zeroes the extrusion axis itself, so the
      encoder never writes an axis reset for them. */
  predicate ManagesOwnExtrusionZero(f: Flavor) {
    match f
    case Makerbot | BFB => true
    case RepRap | UltiGCode | RepRapVolumetric | Mach3 => false
  }

  /** Micrometres to millimetres. */
  function Mm(v: int): real {
    v as real / 1000.0
  }

  /** A C++ `int(x)` cast of a floating-point value: truncation toward zero. */
  function Trunc(x: real): (n: int)
    ensures 0.0 <= x ==> 0 <= n && n as real <= x < n as real + 1.0
    ensures x <= 0.0 ==> n <= 0 && n as real - 1.0 < x <= n as real
  {
    if x >= 0.0 then x.Floor else -((-x).Floor)
  }

  function Abs(a: int): nat {
    if a < 0 then -a else a
  }

  /** C++ `a / b` on `int`: the quotient truncated toward zero, so that the
      remainder takes the sign of the dividend. */
  function TruncDiv(a: int, b: int): (q: int)
    requires b != 0
    ensures 0 <= a ==> 0 <= a - q * b
    ensures a <= 0 ==> a - q * b <= 0
    ensures Abs(a - q * b) < Abs(b)
  {
    var m := Abs(a) / Abs(b);
    var q := if (0 <= a) == (0 < b) then m else -m;
    TruncDivRemainder(a, b, m, q);
    q
  }

  /** The magnitude of the truncated quotient is the quotient of the
      magnitudes, so the remainder is the magnitudes' remainder with the
      dividend's sign. */
  lemma TruncDivRemainder(a: int, b: int, m: int, q: int)
    requires b != 0 && m == Abs(a) / Abs(b)
    requires q == if (0 <= a) == (0 < b) then m else -m
    ensures 0 <= a ==> a - q * b == Abs(a) % Abs(b)
    ensures a < 0 ==> a - q * b == -(Abs(a) % Abs(b))
    ensures 0 <= Abs(a) % Abs(b) < Abs(b)
    ensures a == 0 ==> Abs(a) % Abs(b) == 0
  {
    var n, d := Abs(a), Abs(b);
    assert n == d * m + n % d;
    var p := m * d;
    assert d * m == p;
    assert q * b == (if 0 <= a then p else -p) by {
      NegateProduct(m, b);
    }
  }

  lemma NegateProduct(x: int, y: int)
    ensures (-x) * y == -(x * y) == x * (-y)
  {
  }

  /** Dividing an exact multiple leaves nothing to truncate. */
  lemma TruncDivExact(a: int, b: int)
    requires b != 0
    ensures TruncDiv(a * b, b) == a
  {
    var q := TruncDiv(a * b, b);
    var r := a * b - q * b;
    assert r == (a - q) * b;
    if a != q {
      assert Abs((a - q) * b) >= Abs(b) by {
        AbsMulAtLeast(a - q, b);
      }
      assert false;
    }
  }

  lemma AbsMulAtLeast(k: int, b: int)
    requires k != 0
    ensures Abs(k * b) >= Abs(b)
  {
    if k > 0 {
      if b >= 0 {
        assert k * b >= b;
      } else {
        assert k * b <= b;
      }
    } else {
      if b >= 0 {
        assert k * b <= -b;
      } else {
        assert k * b >= -b;
      }
    }
  }
}

=== FILE: motion.dfy ===
/** The motion emitter (`writeMove`). BFB machines extrude by motor RPM and
    retract automatically; every other flavor primes a pending retraction,
    undoes a pending z-hop, drives the welder of the metal-printing extension
    and writes one `G0`/`G1` line whose F, Z and extrusion fields appear only
    when needed. */
module Motion {
  import opened GCodeTypes
  import opened Commands
  import opened EncoderState
  import opened Accounting
  import Retraction

  /** Requested mm³/mm above this counts as extruding. */
  const ExtrudingThreshold: real := 0.000001
  /** Extruded volume (mm³) beyond which a prime also resets the extrusion axis. */
  const ResetThresholdMM3: real := 10000.0
  /** Millimetres of filament per motor revolution on every BFB machine. */
  const BfbMmPerRpm: real := 4.0

  /** The requested mm³ per mm of path in the flavor's extrusion unit. */
  function ExtrusionPerMM(c: Config, s: State, e3: real): (epm: real)
    requires ValidConfig(c) && ValidState(s)
    ensures c.volumetric ==> epm == e3
    ensures !c.volumetric ==> epm * c.areas[s.extruder] == e3
  {
    if c.volumetric then e3 else e3 / c.areas[s.extruder]
  }

  /** BFB motor speed for an extrusion rate and a feed speed in mm/s: the
      filament fed per minute over the filament one revolution feeds. The
      motor turns exactly when rate and speed are non-zero and of one sign. */
  function Rpm(epm: real, speed: int): (rpm: real)
    ensures rpm * BfbMmPerRpm == epm * (speed as real) * 60.0
    ensures rpm == 0.0 <==> epm == 0.0 || speed == 0
    ensures rpm > 0.0 <==> (epm > 0.0 && speed > 0) || (epm < 0.0 && speed < 0)
  {
    epm * (speed as real) * 60.0 / BfbMmPerRpm
  }

  /** BFB motor-enable code of extruder `n`: 101, 201, ...; the hundreds
      name the extruder counted from 1 and the units are always 1. */
  function MotorOnCode(n: int): (code: int)
    ensures code % 100 == 1 && code / 100 == n + 1
  {
    (n + 1) * 100 + 1
  }

  /** The BFB branch: motor on/off instead of an extrusion axis. */
  function BfbSegment(c: Config, s: State, x: int, y: int, z: int, speed: int, e3: real, len: real): (r: Step)
    requires ValidConfig(c) && ValidState(s)
    ensures BfbBranch(c, s, x, y, z, speed, ExtrusionPerMM(c, s, e3), len, r)
  {
    BfbCommands(c, s, x, y, z, speed, ExtrusionPerMM(c, s, e3), len)
  }

  /** A BFB move adds `e3 · len` mm³ to the active extruder's filament use
      exactly when the motor turns. */
  lemma BfbSegmentVolume(c: Config, s: State, x: int, y: int, z: int, speed: int, e3: real, len: real)
    requires ValidConfig(c) && ValidState(s)
    ensures var r := BfbSegment(c, s, x, y, z, speed, e3, len);
      TotalFilamentUsed(c, r.st, s.extruder) == TotalFilamentUsed(c, s, s.extruder)
        + (if Rpm(ExtrusionPerMM(c, s, e3), speed) > 0.0 then e3 * len else 0.0)
  {
    var epm := ExtrusionPerMM(c, s, e3);
    var r := BfbSegment(c, s, x, y, z, speed, e3, len);
    if Rpm(epm, speed) > 0.0 {
      ExtendVolume(c, s, e3, len);
      SameAccounts(c, r.st, s.(extrusion := s.extrusion + epm * len));
    } else {
      SameAccounts(c, r.st, s);
    }
  }

  /** Filament use depends only on the totals, the running value and the
      active extruder. */
  lemma SameAccounts(c: Config, a: State, b: State)
    requires ValidConfig(c) && ValidState(a) && ValidState(b)
    requires a.totals == b.totals && a.extrusion == b.extrusion && a.extruder == b.extruder
    ensures TotalFilamentUsed(c, a, a.extruder) == TotalFilamentUsed(c, b, b.extruder)
  {
  }

  /** The BFB branch's commands and state, for a given extrusion rate. */
  function BfbCommands(c: Config, s: State, x: int, y: int, z: int, speed: int, epm: real, len: real): (r: Step)
    requires ValidConfig(c) && ValidState(s)
    ensures BfbBranch(c, s, x, y, z, speed, epm, len, r)
  {
    var rpm := Rpm(epm, speed);
    var off := c.offsets[s.extruder];
    if rpm > 0.0 then
      var key := Trunc(rpm * 10.0);
      var enable :=
        if !s.isRetracted then []
        else (if s.currentSpeed != key then [RpmSet(rpm)] else []) + [MotorOn(MotorOnCode(s.extruder))];
      var st := s.(currentSpeed := if s.isRetracted then key else s.currentSpeed,
                   isRetracted := false,
                   extrusion := s.extrusion + epm * len);
      Step(st, enable + [Cmd.BfbMove(x - off.x, y - off.y, z, speed, Some(rpm))], [])
    else
      var disable := if s.isRetracted then [] else [MotorOff];
      Step(s.(isRetracted := true), disable + [Cmd.BfbMove(x - off.x, y - off.y, z, speed, None)], [])
  }

  /** What the BFB branch promises: RPM-driven extrusion with automatic
      retraction, and one coordinate line per move. */
  ghost predicate BfbBranch(c: Config, s: State, x: int, y: int, z: int, speed: int, epm: real, len: real, r: Step)
    requires ValidConfig(c) && ValidState(s)
  {
    && ValidState(r.st) && r.plans == []
    && r.st == s.(isRetracted := r.st.isRetracted, currentSpeed := r.st.currentSpeed, extrusion := r.st.extrusion)
    && (r.st.isRetracted <==> Rpm(epm, speed) <= 0.0)
    && r.st.extrusion == s.extrusion + (if Rpm(epm, speed) > 0.0 then epm * len else 0.0)
    && |r.cmds| > 0
    && r.cmds[|r.cmds| - 1] == Cmd.BfbMove(x - c.offsets[s.extruder].x, y - c.offsets[s.extruder].y, z, speed,
                                           if Rpm(epm, speed) > 0.0 then Some(Rpm(epm, speed)) else None)
    && (Rpm(epm, speed) > 0.0 && s.isRetracted ==>
         && |r.cmds| == (if s.currentSpeed != Trunc(Rpm(epm, speed) * 10.0) then 3 else 2)
         && r.cmds[|r.cmds| - 2] == MotorOn(MotorOnCode(s.extruder))
         && (r.cmds[0] == RpmSet(Rpm(epm, speed)) <==> s.currentSpeed != Trunc(Rpm(epm, speed) * 10.0))
         && r.st.currentSpeed == Trunc(Rpm(epm, speed) * 10.0))
    && (!(Rpm(epm, speed) > 0.0 && s.isRetracted) ==> r.st.currentSpeed == s.currentSpeed)
    && (Rpm(epm, speed) > 0.0 && !s.isRetracted ==> |r.cmds| == 1)
    && (Rpm(epm, speed) <= 0.0 ==>
         |r.cmds| == (if s.isRetracted then 1 else 2) && (!s.isRetracted ==> r.cmds[0] == MotorOff))
  }

  /** Growing the running value by `ExtrusionPerMM(e3) · len` grows the
      active extruder's filament use by exactly `e3 · len` mm³. */
  lemma ExtendVolume(c: Config, t: State, e3: real, len: real)
    requires ValidConfig(c) && ValidState(t)
    ensures var t' := t.(extrusion := t.extrusion + ExtrusionPerMM(c, t, e3) * len);
      TotalFilamentUsed(c, t', t.extruder) == TotalFilamentUsed(c, t, t.extruder) + e3 * len
  {
    if !c.volumetric {
      var a, x, epm := c.areas[t.extruder], t.extrusion, ExtrusionPerMM(c, t, e3);
      assert epm * a == e3;
      calc {
        (x + epm * len) * a;
        x * a + (epm * a) * len;
        x * a + e3 * len;
      }
    }
  }

  /** Returns from a pending z-hop to the true current Z. */
  function Unhop(s: State): (r: Step)
    ensures !r.st.isZHopped && r.plans == []
    ensures r.st == s.(isZHopped := false)
    ensures r.cmds == if s.isZHopped then [ZMove(s.pos.z)] else []
  {
    if s.isZHopped then Step(s.(isZHopped := false), [ZMove(s.pos.z)], []) else Unchanged(s)
  }

  /** The extrusion value a prime leaves: zeroed when the running volume
      exceeds the reset threshold and the flavor allows an axis reset. */
  function PrimedExtrusion(c: Config, s: State): (v: real)
    requires ValidConfig(c) && ValidState(s)
    ensures !s.isRetracted || ManagesOwnExtrusionZero(c.flavor) ==> v == s.extrusion
    ensures v != s.extrusion ==> v == 0.0 && ResetApplies(c, s) && ExtrusionMM3(c, s, s.extruder) > ResetThresholdMM3
    ensures s.isRetracted && ExtrusionMM3(c, s, s.extruder) > ResetThresholdMM3 && !ManagesOwnExtrusionZero(c.flavor)
      ==> v == 0.0
  {
    if s.isRetracted && ExtrusionMM3(c, s, s.extruder) > ResetThresholdMM3
       && !ManagesOwnExtrusionZero(c.flavor)
    then 0.0 else s.extrusion
  }

  /** Undoes a pending retraction: firmware `G11` for volumetric flavors, an
      extrusion-axis move back to the running value otherwise; then resets
      the axis if too much volume has accumulated. */
  function Prime(c: Config, s: State): (r: Step)
    requires ValidConfig(c) && ValidState(s)
    ensures ValidState(r.st) && !r.st.isRetracted
    ensures r.st.extrusion == PrimedExtrusion(c, s)
    ensures TotalFilamentUsed(c, r.st, s.extruder) == TotalFilamentUsed(c, s, s.extruder)
    ensures r.st.currentSpeed ==
      if s.isRetracted && !IsVolumetric(c.flavor) then s.primeSpeed else s.currentSpeed
    ensures r.st == s.(isRetracted := false, currentSpeed := r.st.currentSpeed, extrusion := r.st.extrusion,
                       history := r.st.history, totals := r.st.totals)
    ensures |r.st.history| == |s.history|
    ensures var z := ResetExtrusionValue(c, s).st;
      if s.isRetracted && ExtrusionMM3(c, s, s.extruder) > ResetThresholdMM3
      then r.st.history == z.history && r.st.totals == z.totals
      else r.st.history == s.history && r.st.totals == s.totals
    ensures !s.isRetracted ==> r == Unchanged(s)
    ensures s.isRetracted ==>
      && |r.plans| == 1 && |r.cmds| > 0
      && r.cmds[0] == (if IsVolumetric(c.flavor) then Unretract
                       else EMove(s.primeSpeed * 60, EField(c.axes[s.extruder], s.extrusion)))
    ensures s.isRetracted ==>
      r.cmds == Unretraction(c, s).cmds
                + (if ExtrusionMM3(c, s, s.extruder) > ResetThresholdMM3 && !ManagesOwnExtrusionZero(c.flavor)
                   then [ZeroAxis(c.axes[s.extruder])] else [])
  {
    if !s.isRetracted then
      Unchanged(s)
    else
      var unretract := Unretraction(c, s);
      SameAccounts(c, unretract.st, s);
      var reset :=
        if ExtrusionMM3(c, unretract.st, s.extruder) > ResetThresholdMM3 then ResetExtrusionValue(c, unretract.st)
        else Unchanged(unretract.st);
      var r := Chain(unretract, reset);
      Step(r.st.(isRetracted := false), r.cmds, r.plans)
  }

  /** Priming moves no filament between extruders, and a reset it triggers
      shifts every retraction-history entry with the running value, so the
      retraction window keeps measuring the same distances. */
  lemma PrimeKeepsAccounts(c: Config, s: State)
    requires ValidConfig(c) && ValidState(s)
    ensures var r := Prime(c, s).st;
      && (forall e :: 0 <= e < MaxExtruders ==> TotalFilamentUsed(c, r, e) == TotalFilamentUsed(c, s, e))
      && (forall i :: 0 <= i < |s.history| ==> r.extrusion - r.history[i] == s.extrusion - s.history[i])
  {
    var r := Prime(c, s).st;
    var z := ResetExtrusionValue(c, s).st;
    if s.isRetracted && ExtrusionMM3(c, s, s.extruder) > ResetThresholdMM3 {
      assert r.extrusion == z.extrusion && r.extruder == z.extruder;
      SameAccounts(c, r, z);
    }
  }

  /** The priming instruction alone, with its estimator sample. */
  function Unretraction(c: Config, s: State): (r: Step)
    requires ValidConfig(c) && ValidState(s)
    ensures r.st == s.(currentSpeed := r.st.currentSpeed)
    ensures r.st.currentSpeed == if IsVolumetric(c.flavor) then s.currentSpeed else s.primeSpeed
    ensures |r.plans| == 1 && |r.cmds| == 1
    ensures r.cmds[0] == (if IsVolumetric(c.flavor) then Unretract
                          else EMove(s.primeSpeed * 60, EField(c.axes[s.extruder], s.extrusion)))
  {
    var at := s.pos;
    if IsVolumetric(c.flavor) then
      Step(s, [Unretract], [Sample(at.x, at.y, at.z, s.extrusion, Retraction.FirmwareRetractFeed)])
    else
      Step(s.(currentSpeed := s.primeSpeed),
           [EMove(s.primeSpeed * 60, EField(c.axes[s.extruder], s.extrusion))],
           [Sample(at.x, at.y, at.z, s.extrusion, s.primeSpeed as real)])
  }

  /** Metal printing: an extruding segment switches the welder on. */
  function WeldOn(c: Config, s: State): (r: Step)
    ensures r.plans == [] && r.st == s.(isWelding := r.st.isWelding)
    ensures r.st.isWelding == (s.isWelding || c.metalPrinting)
    ensures r.cmds == if c.metalPrinting && !s.isWelding then [Raw(c.welderOn)] else []
  {
    if c.metalPrinting && !s.isWelding then Step(s.(isWelding := true), [Raw(c.welderOn)], [])
    else Unchanged(s)
  }

  /** Metal printing: only travel longer than the minimum distance switches
      the welder off; shorter gaps keep it on. */
  function WeldOff(c: Config, s: State, len: real): (r: Step)
    ensures r.plans == [] && r.st == s.(isWelding := r.st.isWelding)
    ensures r.st.isWelding == (s.isWelding && !(c.metalPrinting && len > c.minDistWelderOff))
    ensures r.cmds == if r.st.isWelding != s.isWelding then [Raw(c.welderOff)] else []
  {
    if c.metalPrinting && s.isWelding && len > c.minDistWelderOff then
      Step(s.(isWelding := false), [Raw(c.welderOff)], [])
    else Unchanged(s)
  }

  /** Everything an extruding segment does before its line is written. */
  function ExtrudeSetup(c: Config, s: State, epm: real, len: real): (r: Step)
    requires ValidConfig(c) && ValidState(s)
    ensures ValidState(r.st) && !r.st.isRetracted && !r.st.isZHopped
    ensures r.st.extrusion == PrimedExtrusion(c, s) + epm * len
    ensures var base := r.st.(extrusion := PrimedExtrusion(c, s));
      ValidState(base) && TotalFilamentUsed(c, base, s.extruder) == TotalFilamentUsed(c, s, s.extruder)
    ensures r.st.currentSpeed ==
      if s.isRetracted && !IsVolumetric(c.flavor) then s.primeSpeed else s.currentSpeed
    ensures r.st.isWelding == (s.isWelding || c.metalPrinting)
    ensures r.st == s.(isRetracted := false, isZHopped := false, currentSpeed := r.st.currentSpeed,
                       extrusion := r.st.extrusion, history := r.st.history, totals := r.st.totals,
                       isWelding := r.st.isWelding)
    ensures |r.st.history| == |s.history|
    ensures var pr := Prime(c, Unhop(s).st).st; r.st.history == pr.history && r.st.totals == pr.totals
    ensures |r.plans| == (if s.isRetracted then 1 else 0)
    ensures var u := Unhop(s); var pr := Prime(c, u.st);
      r.cmds == u.cmds + pr.cmds + WeldOn(c, pr.st).cmds
  {
    var u := Unhop(s);
    var pr := Prime(c, u.st);
    assert PrimedExtrusion(c, u.st) == PrimedExtrusion(c, s);
    assert pr.st.currentSpeed ==
      if s.isRetracted && !IsVolumetric(c.flavor) then s.primeSpeed else s.currentSpeed;
    SameAccounts(c, u.st, s);
    var p := Chain(u, pr);
    var w := Chain(p, WeldOn(c, p.st));
    SameAccounts(c, w.st, pr.st);
    Step(w.st.(extrusion := w.st.extrusion + epm * len), w.cmds, w.plans)
  }

  /** The feed speed in effect when the move line is written. */
  function SpeedBeforeLine(c: Config, s: State, e3: real): int {
    if e3 > ExtrudingThreshold && s.isRetracted && !IsVolumetric(c.flavor) then s.primeSpeed else s.currentSpeed
  }

  /** The non-BFB branch: setup, then one `G0`/`G1` line. */
  function LineMove(c: Config, s: State, x: int, y: int, z: int, speed: int, e3: real, len: real): (r: Step)
    requires ValidConfig(c) && ValidState(s)
    ensures ValidState(r.st) && r.st.extruder == s.extruder && |r.cmds| > 0
    ensures r.st.currentSpeed == speed
    ensures e3 > ExtrudingThreshold ==>
      var setup := ExtrudeSetup(c, s, ExtrusionPerMM(c, s, e3), len).st;
      r.st.totals == setup.totals && r.st.extrusion == setup.extrusion && r.st.history == setup.history
    ensures e3 > ExtrudingThreshold ==>
      && !r.st.isZHopped && !r.st.isRetracted
      && r.st.extrusion == PrimedExtrusion(c, s) + ExtrusionPerMM(c, s, e3) * len
    ensures e3 <= ExtrudingThreshold ==>
      r.st == s.(currentSpeed := speed, isWelding := r.st.isWelding) && r.plans == []
    ensures e3 > ExtrudingThreshold ==>
      var setup := ExtrudeSetup(c, s, ExtrusionPerMM(c, s, e3), len).cmds;
      |r.cmds| == |setup| + 1 && setup <= r.cmds
    ensures e3 <= ExtrudingThreshold ==>
      var off := WeldOff(c, s, len);
      && |r.cmds| == |off.cmds| + 1 && off.cmds <= r.cmds
      && r.st.isWelding == off.st.isWelding
    ensures var line := r.cmds[|r.cmds| - 1];
      && line.Move? && line.draw == (e3 > ExtrudingThreshold)
      && line.x == x - c.offsets[s.extruder].x && line.y == y - c.offsets[s.extruder].y
      && line.fField == (if speed != SpeedBeforeLine(c, s, e3) then Some(speed * 60) else None)
      && line.zField == (if z != s.pos.z then Some(z) else None)
      && (line.eField.Some? <==> e3 > ExtrudingThreshold && !c.metalPrinting)
      && (line.eField.Some? ==> line.eField.value == EField(c.axes[s.extruder], r.st.extrusion))
  {
    if e3 > ExtrudingThreshold then
      WriteLine(c, s, ExtrudeSetup(c, s, ExtrusionPerMM(c, s, e3), len), true, x, y, z, speed)
    else
      WriteLine(c, s, WeldOff(c, s, len), false, x, y, z, speed)
  }

  /** A line move touches only the speed, the retraction and hop flags, the
      extrusion accounts and the welder. */
  lemma LineMoveFrame(c: Config, s: State, x: int, y: int, z: int, speed: int, e3: real, len: real)
    requires ValidConfig(c) && ValidState(s)
    ensures var r := LineMove(c, s, x, y, z, speed, e3, len);
      && r.st == s.(currentSpeed := speed, isRetracted := r.st.isRetracted, isZHopped := r.st.isZHopped,
                    extrusion := r.st.extrusion, history := r.st.history, totals := r.st.totals,
                    isWelding := r.st.isWelding)
      && |r.st.history| == |s.history|
      && (r.st.isZHopped ==> s.isZHopped && r.st.isRetracted == s.isRetracted)
  {
  }

  /** The `G0`/`G1` line written after `pre`, with its F, Z and extrusion
      fields. */
  function WriteLine(c: Config, s: State, pre: Step, extruding: bool, x: int, y: int, z: int, speed: int): (r: Step)
    requires ValidConfig(c) && ValidState(s)
    ensures r.st == pre.st.(currentSpeed := speed) && r.plans == pre.plans
    ensures |r.cmds| == |pre.cmds| + 1 && pre.cmds <= r.cmds
    ensures var line := r.cmds[|r.cmds| - 1];
      && line.Move? && line.draw == extruding
      && line.x == x - c.offsets[s.extruder].x && line.y == y - c.offsets[s.extruder].y
      && line.fField == (if speed != pre.st.currentSpeed then Some(speed * 60) else None)
      && line.zField == (if z != s.pos.z then Some(z) else None)
      && (line.eField.Some? <==> extruding && !c.metalPrinting)
      && (line.eField.Some? ==> line.eField.value == EField(c.axes[s.extruder], pre.st.extrusion))
  {
    var p := pre.st;
    var off := c.offsets[s.extruder];
    var line := Move(extruding,
                     if p.currentSpeed != speed then Some(speed * 60) else None,
                     x - off.x, y - off.y,
                     if z != s.pos.z then Some(z) else None,
                     if !c.metalPrinting && extruding then Some(EField(c.axes[s.extruder], p.extrusion)) else None);
    Step(p.(currentSpeed := speed), pre.cmds + [line], pre.plans)
  }

  /** Whether a move deposits material: it goes somewhere, and either the
      BFB motor turns or the requested rate exceeds the threshold. */
  predicate Extrudes(c: Config, s: State, x: int, y: int, z: int, speed: int, e3: real)
    requires ValidConfig(c) && ValidState(s)
  {
    && s.pos != Point3(x, y, z)
    && if c.flavor == BFB then Rpm(ExtrusionPerMM(c, s, e3), speed) > 0.0 else e3 > ExtrudingThreshold
  }

  /** A move to (x, y, z) at `speed` mm/s depositing `e3` mm³ per mm over a
      segment `len` mm long. A move to the current position does nothing;
      every other move ends at the target and plans one final estimator
      sample there. */
  function WriteMove(c: Config, s: State, x: int, y: int, z: int, speed: int, e3: real, len: real): (r: Step)
    requires ValidConfig(c) && ValidState(s) && 0.0 <= len
    ensures ValidState(r.st) && r.st.extruder == s.extruder
    ensures r.st.temps == s.temps && r.st.fanSpeed == s.fanSpeed && r.st.zPos == s.zPos
    ensures r.st.printTime == s.printTime && r.st.primeSpeed == s.primeSpeed
    ensures |r.st.history| == |s.history|
    ensures r.st.isZHopped ==> s.isZHopped
    ensures c.flavor != BFB && r.st.isZHopped ==> r.st.isRetracted == s.isRetracted
    ensures s.pos == Point3(x, y, z) ==> r == Unchanged(s)
    ensures s.pos != Point3(x, y, z) && c.flavor == BFB ==>
      var body := BfbSegment(c, s, x, y, z, speed, e3, len);
      && r.st == body.st.(pos := Point3(x, y, z), start := Point3(x, y, z))
      && r.cmds == body.cmds && r.plans == body.plans + [Sample(x, y, z, r.st.extrusion, speed as real)]
    ensures s.pos != Point3(x, y, z) && c.flavor != BFB ==>
      var body := LineMove(c, s, x, y, z, speed, e3, len);
      && r.st == body.st.(pos := Point3(x, y, z), start := Point3(x, y, z))
      && r.cmds == body.cmds && r.plans == body.plans + [Sample(x, y, z, r.st.extrusion, speed as real)]
    ensures s.pos != Point3(x, y, z) ==>
      && r.st.pos == Point3(x, y, z) && r.st.start == Point3(x, y, z)
      && |r.cmds| > 0 && |r.plans| > 0
      && r.plans[|r.plans| - 1] == Sample(x, y, z, r.st.extrusion, speed as real)
  {
    if s.pos == Point3(x, y, z) then
      Unchanged(s)
    else if c.flavor == BFB then
      Arrive(BfbSegment(c, s, x, y, z, speed, e3, len), x, y, z, speed)
    else
      LineMoveFrame(c, s, x, y, z, speed, e3, len);
      Arrive(LineMove(c, s, x, y, z, speed, e3, len), x, y, z, speed)
  }

  /** The end of every move that goes somewhere: position and start position
      become the target, and the estimator is handed the target. */
  function Arrive(body: Step, x: int, y: int, z: int, speed: int): (r: Step)
    ensures r.st == body.st.(pos := Point3(x, y, z), start := Point3(x, y, z)) && r.cmds == body.cmds
    ensures r.plans == body.plans + [Sample(x, y, z, body.st.extrusion, speed as real)]
  {
    var st := body.st.(pos := Point3(x, y, z), start := Point3(x, y, z));
    Step(st, body.cmds, body.plans + [Sample(x, y, z, st.extrusion, speed as real)])
  }

  /** A non-BFB move adds `e3 · len` mm³ to the active extruder's filament
      use when it extrudes and nothing otherwise; a prime-time axis reset in
      between changes nothing. */
  lemma LineMoveVolume(c: Config, s: State, x: int, y: int, z: int, speed: int, e3: real, len: real)
    requires ValidConfig(c) && ValidState(s)
    ensures var r := LineMove(c, s, x, y, z, speed, e3, len);
      TotalFilamentUsed(c, r.st, s.extruder)
        == TotalFilamentUsed(c, s, s.extruder) + (if e3 > ExtrudingThreshold then e3 * len else 0.0)
  {
    var r := LineMove(c, s, x, y, z, speed, e3, len);
    if e3 > ExtrudingThreshold {
      var epm := ExtrusionPerMM(c, s, e3);
      var setup := ExtrudeSetup(c, s, epm, len).st;
      GrowthVolume(c, s, setup.(extrusion := PrimedExtrusion(c, s)), setup, e3, len);
      SameAccounts(c, r.st, setup);
    } else {
      SameAccounts(c, r.st, s);
    }
  }

  lemma GrowthVolume(c: Config, s: State, base: State, grown: State, e3: real, len: real)
    requires ValidConfig(c) && ValidState(s) && ValidState(base) && base.extruder == s.extruder
    requires TotalFilamentUsed(c, base, s.extruder) == TotalFilamentUsed(c, s, s.extruder)
    requires grown == base.(extrusion := base.extrusion + ExtrusionPerMM(c, s, e3) * len)
    ensures TotalFilamentUsed(c, grown, s.extruder) == TotalFilamentUsed(c, s, s.extruder) + e3 * len
  {
    ExtendVolume(c, base, e3, len);
  }

  /** Filament accounting does not depend on the encoding: in every flavor a
      move that extrudes adds exactly `e3 · len` mm³ to the active extruder's
      filament use, and any other move adds nothing. */
  lemma MoveAddsVolume(c: Config, s: State, x: int, y: int, z: int, speed: int, e3: real, len: real)
    requires ValidConfig(c) && ValidState(s) && 0.0 <= len
    ensures var r := WriteMove(c, s, x, y, z, speed, e3, len);
      TotalFilamentUsed(c, r.st, s.extruder)
        == TotalFilamentUsed(c, s, s.extruder) + (if Extrudes(c, s, x, y, z, speed, e3) then e3 * len else 0.0)
  {
    var r := WriteMove(c, s, x, y, z, speed, e3, len);
    if s.pos != Point3(x, y, z) {
      if c.flavor == BFB {
        BfbSegmentVolume(c, s, x, y, z, speed, e3, len);
        SameAccounts(c, r.st, BfbSegment(c, s, x, y, z, speed, e3, len).st);
      } else {
        LineMoveVolume(c, s, x, y, z, speed, e3, len);
        SameAccounts(c, r.st, LineMove(c, s, x, y, z, speed, e3, len).st);
      }
    }
  }

  /** The XY overload: moves at the pending Z set by `SetZ`. */
  function WriteMoveXY(c: Config, s: State, x: int, y: int, speed: int, e3: real, len: real): (r: Step)
    requires ValidConfig(c) && ValidState(s) && 0.0 <= len
    ensures s.pos == Point3(x, y, s.zPos) ==> r == Unchanged(s)
    ensures s.pos != Point3(x, y, s.zPos) ==> r.st.pos == Point3(x, y, s.zPos)
  {
    WriteMove(c, s, x, y, s.zPos, speed, e3, len)
  }
}

=== FILE: path_config.dfy ===
/** Per-feature path settings (`GCodePathConfig`) and the retraction record
    they point to (`RetractionConfig`). The extrusion volume per millimetre is
    a field derived from line width, layer thickness and flow; every setter
    keeps it in step. */
module PathConfigs {
  import opened GCodeTypes

  /** Retraction settings of one path: `amount <= 0` means no retraction. */
  datatype RetractionConfig = RetractionConfig(
    amount: real,
    speed: int,
    primeSpeed: int,
    primeAmount: real,
    zHop: int)

  /** `retraction` is `None` where the source holds a null pointer; so is
      `name` for the default constructor. */
  datatype PathConfig = PathConfig(
    speed: int,
    lineWidth: int,
    flow: int,
    layerThickness: int,
    extrusionMM3perMM: real,
    name: Option<string>,
    spiralize: bool,
    retraction: Option<RetractionConfig>)

  /** mm³ deposited per mm of path: width (mm) × thickness (mm) × flow / 100.
      In the config's own units (µm, µm, percent) that is the integer product
      scaled by 10⁻⁸, and it vanishes exactly when one factor is zero. */
  function Extrusion(lineWidth: int, layerThickness: int, flow: int): (r: real)
    ensures r == (lineWidth * layerThickness * flow) as real / 100_000_000.0
    ensures r == 0.0 <==> lineWidth == 0 || layerThickness == 0 || flow == 0
  {
    Mm(lineWidth) * Mm(layerThickness) * (flow as real) / 100.0
  }

  /** The derived-field invariant of a path config. */
  ghost predicate Derived(p: PathConfig) {
    p.extrusionMM3perMM == Extrusion(p.lineWidth, p.layerThickness, p.flow)
  }

  /** Zero width deposits nothing, whatever the other factors hold. */
  lemma ZeroWidthExtrudesNothing(thickness: int, flow: int)
    ensures Extrusion(0, thickness, flow) == 0.0
  {
  }

  /** The default constructor. Flow and layer thickness are left uninitialised
      by the source; `flow0` and `thickness0` stand for whatever they hold. */
  function DefaultPathConfig(flow0: int, thickness0: int): (p: PathConfig)
    ensures p.speed == 0 && p.lineWidth == 0 && p.extrusionMM3perMM == 0.0
    ensures !p.spiralize && p.name.None? && p.retraction.None?
    ensures Derived(p)
  {
    ZeroWidthExtrudesNothing(thickness0, flow0);
    PathConfig(0, 0, flow0, thickness0, 0.0, None, false, None)
  }

  /** The constructor taking a retraction config and a display name; flow and
      layer thickness are left uninitialised as in `DefaultPathConfig`. */
  function NewPathConfig(retraction: Option<RetractionConfig>, name: string, flow0: int, thickness0: int): (p: PathConfig)
    ensures p.speed == 0 && p.lineWidth == 0 && p.extrusionMM3perMM == 0.0
    ensures !p.spiralize && p.name == Some(name) && p.retraction == retraction
    ensures Derived(p)
  {
    ZeroWidthExtrudesNothing(thickness0, flow0);
    PathConfig(0, 0, flow0, thickness0, 0.0, Some(name), false, retraction)
  }

  function SetSpeed(p: PathConfig, speed: int): (r: PathConfig)
    ensures r.speed == speed && r == p.(speed := speed)
    ensures r.extrusionMM3perMM == p.extrusionMM3perMM && r.lineWidth == p.lineWidth
    ensures r.retraction == p.retraction
    ensures Derived(p) ==> Derived(r)
  {
    p.(speed := speed)
  }

  function SetLineWidth(p: PathConfig, lineWidth: int): (r: PathConfig)
    ensures r.lineWidth == lineWidth && Derived(r)
    ensures r.speed == p.speed && r.flow == p.flow && r.layerThickness == p.layerThickness
    ensures r.name == p.name && r.spiralize == p.spiralize && r.retraction == p.retraction
  {
    var q := p.(lineWidth := lineWidth);
    q.(extrusionMM3perMM := Extrusion(q.lineWidth, q.layerThickness, q.flow))
  }

  function SetLayerHeight(p: PathConfig, layerHeight: int): (r: PathConfig)
    ensures r.layerThickness == layerHeight && Derived(r)
    ensures r.speed == p.speed && r.flow == p.flow && r.lineWidth == p.lineWidth
    ensures r.name == p.name && r.spiralize == p.spiralize && r.retraction == p.retraction
  {
    var q := p.(layerThickness := layerHeight);
    q.(extrusionMM3perMM := Extrusion(q.lineWidth, q.layerThickness, q.flow))
  }

  function SetFlow(p: PathConfig, flow: int): (r: PathConfig)
    ensures r.flow == flow && Derived(r)
    ensures r.speed == p.speed && r.layerThickness == p.layerThickness && r.lineWidth == p.lineWidth
    ensures r.name == p.name && r.spiralize == p.spiralize && r.retraction == p.retraction
  {
    var q := p.(flow := flow);
    q.(extrusionMM3perMM := Extrusion(q.lineWidth, q.layerThickness, q.flow))
  }

  /** Once width, height and flow have all been set, in any order, the
      indeterminate initial contents no longer matter. */
  lemma SettersDetermineExtrusion(p: PathConfig, w: int, h: int, f: int)
    ensures SetFlow(SetLayerHeight(SetLineWidth(p, w), h), f).extrusionMM3perMM == Extrusion(w, h, f)
    ensures SetLineWidth(SetFlow(SetLayerHeight(p, h), f), w).extrusionMM3perMM == Extrusion(w, h, f)
  {
  }

  /** Non-negative factors give a non-negative extrusion volume. */
  lemma ExtrusionNonNegative(p: PathConfig)
    requires Derived(p)
    requires p.lineWidth >= 0 && p.layerThickness >= 0 && p.flow >= 0
    ensures p.extrusionMM3perMM >= 0.0
  {
    var w, h, f := Mm(p.lineWidth), Mm(p.layerThickness), p.flow as real;
    assert w >= 0.0 && h >= 0.0 && f >= 0.0;
    assert w * h >= 0.0;
    assert w * h * f >= 0.0;
  }

  /** Linear speed ramp over the first layers, in C++ integer arithmetic:
      `speed·layer/max + minSpeed·(max − layer)/max`, both divisions
      truncating toward zero. */
  function SmoothSpeed(p: PathConfig, minSpeed: int, layerNr: int, maxSpeedLayer: int): (r: PathConfig)
    requires maxSpeedLayer != 0
    ensures r == p.(speed := r.speed)
    ensures layerNr == maxSpeedLayer ==> r.speed == p.speed
    ensures layerNr == 0 ==> r.speed == minSpeed
  {
    TruncDivExact(p.speed, maxSpeedLayer);
    TruncDivExact(minSpeed, maxSpeedLayer);
    assert maxSpeedLayer - layerNr == 0 ==> minSpeed * (maxSpeedLayer - layerNr) == 0 * maxSpeedLayer;
    p.(speed := TruncDiv(p.speed * layerNr, maxSpeedLayer)
                + TruncDiv(minSpeed * (maxSpeedLayer - layerNr), maxSpeedLayer))
  }

  function Min(a: int, b: int): int { if a <= b then a else b }
  function Max(a: int, b: int): int { if a <= b then b else a }

  /** Between the first layer and `maxSpeedLayer`, with non-negative speeds,
      the smoothed speed lies between the two speeds, less at most one unit
      lost to the two truncations. */
  lemma SmoothSpeedBounds(p: PathConfig, minSpeed: int, layerNr: int, maxSpeedLayer: int)
    requires 0 < maxSpeedLayer && 0 <= layerNr <= maxSpeedLayer
    requires 0 <= p.speed && 0 <= minSpeed
    ensures Min(p.speed, minSpeed) - 1 <= SmoothSpeed(p, minSpeed, layerNr, maxSpeedLayer).speed
    ensures SmoothSpeed(p, minSpeed, layerNr, maxSpeedLayer).speed <= Max(p.speed, minSpeed)
  {
    var m, k := maxSpeedLayer, maxSpeedLayer - layerNr;
    var lo, hi := Min(p.speed, minSpeed), Max(p.speed, minSpeed);
    var a, b := p.speed * layerNr, minSpeed * k;
    ScaleBetween(lo, p.speed, hi, layerNr);
    ScaleBetween(lo, minSpeed, hi, k);
    SplitProduct(lo, layerNr, k);
    SplitProduct(hi, layerNr, k);
    var q1, q2 := TruncDiv(a, m), TruncDiv(b, m);
    SplitProduct(m, q1, q2);
    assert (q1 + q2) * m <= hi * m;
    assert lo * m < (q1 + q2 + 2) * m by {
      SplitProduct(m, q1 + q2, 2);
    }
    MulMonotoneInverse(q1 + q2, hi, m);
    MulStrictInverse(lo, q1 + q2 + 2, m);
  }

  lemma ScaleBetween(lo: int, x: int, hi: int, k: int)
    requires lo <= x <= hi && 0 <= k
    ensures lo * k <= x * k <= hi * k
  {
  }

  lemma SplitProduct(x: int, a: int, b: int)
    ensures x * (a + b) == x * a + x * b
    ensures (a + b) * x == a * x + b * x
  {
  }

  lemma MulMonotoneInverse(x: int, y: int, m: int)
    requires 0 < m && x * m <= y * m
    ensures x <= y
  {
  }

  lemma MulStrictInverse(x: int, y: int, m: int)
    requires 0 < m && x * m < y * m
    ensures x < y
  {
  }
}

=== FILE: retraction.dfy ===
/** The retraction state machine: a retraction withdraws filament (firmware
    `G10` or an extrusion-axis move), optionally lifts Z, and records the
    extrusion value in the retraction history. A non-forced retraction is
    skipped when too many retractions fall inside the extrusion window. */
module Retraction {
  import opened GCodeTypes
  import opened Commands
  import opened PathConfigs
  import opened EncoderState

  /** Retraction distance assumed for firmware retraction (not configurable). */
  const FirmwareRetractDistance: real := 4.5
  /** Feed rate assumed for firmware retraction and priming (not configurable). */
  const FirmwareRetractFeed: real := 25.0

  /** Whether the call gets as far as the window test, which reads the
      oldest history entry. */
  predicate ReachesWindowTest(c: Config, s: State, rc: RetractionConfig, force: bool) {
    && c.flavor != BFB && !s.isRetracted && rc.amount > 0.0
    && !force && c.countMax > 0 && |s.history| == c.countMax - 1
  }

  /** The oldest history entry exists whenever the window test reads it.
      This fails exactly when `countMax == 1`: the history is then always
      empty and the source reads past it. */
  predicate WindowTestDefined(c: Config, s: State, rc: RetractionConfig, force: bool) {
    ReachesWindowTest(c, s, rc, force) ==> |s.history| > 0
  }

  /** Too little has been extruded since the oldest remembered retraction. */
  predicate Suppressed(c: Config, s: State, rc: RetractionConfig, force: bool)
    requires WindowTestDefined(c, s, rc, force)
  {
    ReachesWindowTest(c, s, rc, force) && s.extrusion < s.history[|s.history| - 1] + c.window
  }

  /** The retraction is not performed at all. */
  predicate Skipped(c: Config, s: State, rc: RetractionConfig, force: bool)
    requires WindowTestDefined(c, s, rc, force)
  {
    c.flavor == BFB || s.isRetracted || rc.amount <= 0.0 || Suppressed(c, s, rc, force)
  }

  /** The history after recording `e`: newest first, the oldest entry
      dropped once `countMax` entries would be held. */
  function Record(h: seq<real>, e: real, countMax: int): (r: seq<real>)
    ensures |r| == if |h| + 1 == countMax then |h| else |h| + 1
    ensures |r| > 0 ==> r[0] == e && r[1..] == h[..|r| - 1]
    ensures countMax >= 1 && |h| <= countMax - 1 ==> |r| <= countMax - 1
  {
    var pushed := [e] + h;
    assert pushed[1..] == h;
    if |pushed| == countMax then pushed[..|pushed| - 1] else pushed
  }

  function WriteRetraction(c: Config, s: State, rc: RetractionConfig, force: bool): (r: Step)
    requires ValidConfig(c) && ValidState(s) && WindowTestDefined(c, s, rc, force)
    ensures ValidState(r.st)
    ensures Skipped(c, s, rc, force) <==> r == Unchanged(s)
    ensures !Skipped(c, s, rc, force) ==>
      && r.st.isRetracted
      && r.st.extrusion == s.extrusion + (if rc.primeAmount > 0.0 then rc.primeAmount else 0.0)
      && r.st.extrusion >= s.extrusion
      && r.st.primeSpeed == rc.primeSpeed
      && r.st.history == Record(s.history, r.st.extrusion, c.countMax)
      && (r.st.isZHopped <==> s.isZHopped || rc.zHop > 0)
      && r.st.pos == s.pos && r.st.extruder == s.extruder && r.st.totals == s.totals
      && r.st.currentSpeed == (if IsVolumetric(c.flavor) then s.currentSpeed else rc.speed)
      && r.st == s.(isRetracted := true, extrusion := r.st.extrusion, primeSpeed := rc.primeSpeed,
                    history := r.st.history, isZHopped := r.st.isZHopped, currentSpeed := r.st.currentSpeed)
      && |r.plans| == 1
      && |r.cmds| == (if rc.zHop > 0 then 2 else 1)
      && r.cmds[0] == (if IsVolumetric(c.flavor) then Retract
                       else EMove(rc.speed * 60, EField(c.axes[s.extruder], r.st.extrusion - rc.amount)))
      && (rc.zHop > 0 ==> r.cmds[1] == ZMove(s.pos.z + rc.zHop))
  {
    if Skipped(c, s, rc, force) then
      Unchanged(s)
    else
      var e := if rc.primeAmount > 0.0 then s.extrusion + rc.primeAmount else s.extrusion;
      var at := s.pos;
      var withdraw :=
        if IsVolumetric(c.flavor) then
          Step(s, [Retract], [Sample(at.x, at.y, at.z, e - FirmwareRetractDistance, FirmwareRetractFeed)])
        else
          Step(s.(currentSpeed := rc.speed),
               [EMove(rc.speed * 60, EField(c.axes[s.extruder], e - rc.amount))],
               [Sample(at.x, at.y, at.z, e - rc.amount, rc.speed as real)]);
      var hop := if rc.zHop > 0 then [ZMove(at.z + rc.zHop)] else [];
      var st := withdraw.st.(extrusion := e,
                             primeSpeed := rc.primeSpeed,
                             isZHopped := s.isZHopped || rc.zHop > 0,
                             history := Record(s.history, e, c.countMax),
                             isRetracted := true);
      Step(st, withdraw.cmds + hop, withdraw.plans)
  }

  /** Once retracted, further retraction requests do nothing until something primes. */
  lemma RetractionIsIdempotent(c: Config, s: State, rc: RetractionConfig, force: bool, rc2: RetractionConfig, force2: bool)
    requires ValidConfig(c) && ValidState(s) && WindowTestDefined(c, s, rc, force)
    requires !Skipped(c, s, rc, force)
    ensures var t := WriteRetraction(c, s, rc, force).st;
      WindowTestDefined(c, t, rc2, force2) && WriteRetraction(c, t, rc2, force2) == Unchanged(t)
  {
  }

  /** A forced retraction ignores the window: afterwards the filament is
      retracted exactly when it already was, or the flavor is not BFB and an
      amount is configured. */
  lemma ForcedRetractionIgnoresWindow(c: Config, s: State, rc: RetractionConfig)
    requires ValidConfig(c) && ValidState(s)
    ensures WindowTestDefined(c, s, rc, true)
    ensures WriteRetraction(c, s, rc, true).st.isRetracted
      <==> s.isRetracted || (c.flavor != BFB && rc.amount > 0.0)
  {
  }
}

=== FILE: scenarios.dfy ===
/** Worked examples: concrete configurations and states, and the exact
    instructions the encoder writes for them. */
module Scenarios {
  import opened GCodeTypes
  import opened Commands
  import opened PathConfigs
  import opened EncoderState
  import opened Retraction
  import opened Motion
  import opened ExtruderSwitch
  import opened Ancillary

  /** A fresh encoder's configuration switched to flavor `f`, with 2 mm²
      filament on every extruder and switch speeds of 20 mm/s. */
  function SampleConfig(f: Flavor): (c: Config)
    ensures ValidConfig(c) && c.flavor == f
    ensures c.volumetric <==> f == UltiGCode || f == RepRapVolumetric
  {
    SetFlavor(InitialConfig(seq(MaxExtruders, _ => 2.0), 0, 20, 20, 0.0, false), f)
  }

  /** With three retractions allowed per 1 mm window and two remembered at
      3.0 and 2.0, a retraction at 2.5 is within the window of the oldest
      and is skipped; one at 3.5 goes ahead and the oldest entry drops out. */
  lemma RetractionWindowExample()
    ensures var c := SampleConfig(RepRap).(countMax := 3, window := 1.0);
      var s := Initial(0, false).(history := [3.0, 2.0]);
      var rc := RetractionConfig(4.5, 25, 25, 0.0, 0);
      && WindowTestDefined(c, s.(extrusion := 2.5), rc, false)
      && WriteRetraction(c, s.(extrusion := 2.5), rc, false) == Unchanged(s.(extrusion := 2.5))
      && WindowTestDefined(c, s.(extrusion := 3.5), rc, false)
      && WriteRetraction(c, s.(extrusion := 3.5), rc, false).st.history == [3.5, 3.0]
      && WriteRetraction(c, s.(extrusion := 3.5), rc, false).cmds == [EMove(1500, EField('E', -1.0))]
  {
    var c := SampleConfig(RepRap).(countMax := 3, window := 1.0);
    assert c.axes[0] == 'E';
    assert Record([3.0, 2.0], 3.5, 3) == [3.5, 3.0];
  }

  /** The first extruding RepRap move from a fresh encoder: one `G1` with
      the feed rate (50 mm/s as F3000), no Z field, and an E value of
      0.03 mm³/mm over 10 mm through 2 mm² filament. */
  lemma FirstRepRapMove()
    ensures var r := WriteMove(SampleConfig(RepRap), Initial(0, false), 10000, 0, 0, 50, 0.03, 10.0);
      && r.cmds == [Move(true, Some(3000), 10000, 0, None, Some(EField('E', 0.15)))]
      && r.plans == [Sample(10000, 0, 0, 0.15, 50.0)]
      && r.st.extrusion == 0.15
  {
    var c := SampleConfig(RepRap);
    assert c.axes[0] == 'E';
  }

  /** On BFB a move after a retraction sets the motor speed and starts the
      motor; a second move at the same rate writes only the coordinates. */
  lemma BfbMotorRestartsOnce()
    ensures var c := SampleConfig(BFB);
      var s := Initial(0, false).(isRetracted := true);
      var first := WriteMove(c, s, 10000, 0, 0, 10, 0.4, 10.0);
      var second := WriteMove(c, first.st, 20000, 0, 0, 10, 0.4, 10.0);
      && first.cmds == [RpmSet(30.0), MotorOn(101), Cmd.BfbMove(10000, 0, 0, 10, Some(30.0))]
      && second.cmds == [Cmd.BfbMove(20000, 0, 0, 10, Some(30.0))]
  {
    assert Trunc(300.0) == 300;
  }

  /** A RepRap tool change from a fresh encoder: no axis reset (nothing
      extruded), the switch retraction on the old axis, the tool select
      between the (empty) switch codes, and Z nudged by one micrometre. */
  lemma RepRapToolChange()
    ensures var r := SwitchExtruder(SampleConfig(RepRap), Initial(0, false), 1);
      && r.cmds == [EMove(1200, EField('E', -14.5)), Raw("\n"), ToolSelect(false, 1), Raw("\n")]
      && r.st.extruder == 1 && r.st.isRetracted && r.st.pos == Point3(0, 0, 1)
  {
    var c := SampleConfig(RepRap);
    assert c.axes[0] == 'E';
  }

  /** Half fan speed is duty cycle 127 of 255; Makerbot can only switch it on. */
  lemma FanExample()
    ensures WriteFanCommand(SampleConfig(RepRap), Initial(0, false), 50).cmds == [FanSpeed(127)]
    ensures WriteFanCommand(SampleConfig(Makerbot), Initial(0, false), 50).cmds == [MakerbotFan(true)]
    ensures WriteFanCommand(SampleConfig(RepRap), Initial(0, false), 0).cmds == [FanOff]
  {
    assert FanPwm(50) == 127;
  }
}

=== FILE: session.dfy ===
/** An export session: the encoder's public operations as a sequence of
    requests applied to one state. The session invariant collects what every
    operation keeps true, and a session stops at the first request the
    source leaves undefined in the state it meets. */
module Session {
  import opened GCodeTypes
  import opened Commands
  import opened PathConfigs
  import opened EncoderState
  import opened Accounting
  import opened Retraction
  import opened Motion
  import opened ExtruderSwitch
  import opened Ancillary

  /** One request to the encoder. `len` is the length in mm of the segment a
      move draws. */
  datatype Op =
    | MoveTo(x: int, y: int, z: int, speed: int, e3: real, len: real)
    | MoveToXY(x: int, y: int, speed: int, e3: real, len: real)
    | RetractWith(rc: RetractionConfig, force: bool)
    | ResetExtrusion
    | SwitchTo(n: int)
    | SetFan(speed: int)
    | SetTemperature(e: int, t: int, wait: bool)
    | SetBedTemperature(t: int, wait: bool)
    | Delay(seconds: real)
    | PendingZ(z: int)
    | ForgetStart
    | AddPrintTime(elapsed: real)
    | ResetTotals
    | Finish(maxObjectHeight: int, moveSpeed: int, endCode: string)

  /** Whether the source defines the request in state `s`: segment lengths
      are non-negative, indexed extruders exist, and a retraction that
      reaches the window test has a history entry to compare with. */
  predicate Enabled(c: Config, s: State, op: Op) {
    match op
    case MoveTo(_, _, _, _, _, len) => 0.0 <= len
    case MoveToXY(_, _, _, _, len) => 0.0 <= len
    case RetractWith(rc, force) => WindowTestDefined(c, s, rc, force)
    case SwitchTo(n) => ChangesTool(c, s, n) ==> 0 <= n < MaxExtruders
    case SetTemperature(e, _, _) => 0 <= e < MaxExtruders
    case _ => true
  }

  function Apply(c: Config, s: State, op: Op): (r: Step)
    requires ValidConfig(c) && ValidState(s) && Enabled(c, s, op)
    ensures ValidState(r.st)
    ensures !op.SwitchTo? ==> r.st.extruder == s.extruder
  {
    match op
    case MoveTo(x, y, z, speed, e3, len) => WriteMove(c, s, x, y, z, speed, e3, len)
    case MoveToXY(x, y, speed, e3, len) => WriteMoveXY(c, s, x, y, speed, e3, len)
    case RetractWith(rc, force) => WriteRetraction(c, s, rc, force)
    case ResetExtrusion => ResetExtrusionValue(c, s)
    case SwitchTo(n) => SwitchExtruder(c, s, n)
    case SetFan(speed) => WriteFanCommand(c, s, speed)
    case SetTemperature(e, t, wait) => WriteTemperatureCommand(c, s, e, t, wait)
    case SetBedTemperature(t, wait) => WriteBedTemperatureCommand(s, t, wait)
    case Delay(seconds) => WriteDelay(s, seconds)
    case PendingZ(z) => Unchanged(SetZ(s, z))
    case ForgetStart => Unchanged(ResetStartPosition(s))
    case AddPrintTime(elapsed) => Unchanged(UpdateTotalPrintTime(s, elapsed))
    case ResetTotals => Unchanged(ResetTotalPrintTimeAndFilament(c, s))
    case Finish(h, speed, endCode) => Finalize(c, s, h, speed, endCode)
  }

  /** How a session ends: every request applied, or stopped at request
      `index`, which is undefined in the state reached. */
  datatype Outcome =
    | Completed(step: Step)
    | Undefined(index: nat, step: Step)

  function Run(c: Config, s: State, ops: seq<Op>): (o: Outcome)
    requires ValidConfig(c) && ValidState(s)
    ensures ValidState(o.step.st)
    ensures o.Undefined? ==> o.index < |ops| && !Enabled(c, o.step.st, ops[o.index])
    ensures (forall i :: 0 <= i < |ops| ==> !ops[i].SwitchTo?) ==> o.step.st.extruder == s.extruder
    decreases |ops|
  {
    if ops == [] then
      Completed(Unchanged(s))
    else if !Enabled(c, s, ops[0]) then
      Undefined(0, Unchanged(s))
    else
      var a := Apply(c, s, ops[0]);
      var rest := Run(c, a.st, ops[1..]);
      if rest.Completed? then Completed(Chain(a, rest.step))
      else Undefined(rest.index + 1, Chain(a, rest.step))
  }

  /** What every operation keeps true: a valid state, a retraction history
      shorter than the retraction count, and a z-hop pending only while the
      filament is retracted (never on BFB, which does not retract by G-code). */
  ghost predicate Inv(c: Config, s: State) {
    && ValidState(s)
    && (c.countMax >= 1 ==> |s.history| <= c.countMax - 1)
    && (s.isZHopped ==> s.isRetracted)
    && (c.flavor == BFB ==> !s.isZHopped)
  }

  lemma InitialInv(c: Config, zPos: int, isWelding: bool)
    ensures Inv(c, Initial(zPos, isWelding))
  {
  }

  lemma ApplyPreservesInv(c: Config, s: State, op: Op)
    requires ValidConfig(c) && Inv(c, s) && Enabled(c, s, op)
    ensures Inv(c, Apply(c, s, op).st)
  {
    match op
    case RetractWith(rc, force) =>
      var r := WriteRetraction(c, s, rc, force);
      if !Skipped(c, s, rc, force) {
        assert r.st.history == Record(s.history, r.st.extrusion, c.countMax);
      }
    case _ =>
  }

  lemma {:induction false} RunPreservesInv(c: Config, s: State, ops: seq<Op>)
    requires ValidConfig(c) && Inv(c, s)
    ensures Inv(c, Run(c, s, ops).step.st)
    decreases |ops|
  {
    if ops != [] && Enabled(c, s, ops[0]) {
      var a := Apply(c, s, ops[0]);
      ApplyPreservesInv(c, s, ops[0]);
      RunPreservesInv(c, a.st, ops[1..]);
    }
  }

  /** In a session, a retraction is undefined exactly in the one situation
      the source cannot handle: a retraction count of one, with a
      non-forced retraction that gets as far as the window test. */
  lemma RetractionUndefinedOnlyForCountOne(c: Config, s: State, rc: RetractionConfig, force: bool)
    requires Inv(c, s)
    ensures !WindowTestDefined(c, s, rc, force)
        <==> c.countMax == 1 && c.flavor != BFB && !s.isRetracted && rc.amount > 0.0 && !force
  {
  }

  /** Only moves in a request list. */
  predicate MovesOnly(ops: seq<Op>) {
    forall i :: 0 <= i < |ops| ==> ops[i].MoveTo? && 0.0 <= ops[i].len
  }

  /** Whether a move from `from` deposits material with extruder `ext`
      active: it goes somewhere, and the BFB motor turns or the requested
      rate exceeds the threshold. */
  predicate DepositsFrom(c: Config, ext: int, from: Point3, x: int, y: int, z: int, speed: int, e3: real)
    requires ValidConfig(c) && 0 <= ext < MaxExtruders
  {
    && from != Point3(x, y, z)
    && if c.flavor == BFB then Rpm(if c.volumetric then e3 else e3 / c.areas[ext], speed) > 0.0
       else e3 > ExtrudingThreshold
  }

  /** Filament a list of moves deposits, read off the list alone: each move
      starts where the previous one ended, and only moves that go somewhere
      and extrude count, each with `e3 · len` mm³. */
  function Deposited(c: Config, ext: int, from: Point3, ops: seq<Op>): (v: real)
    requires ValidConfig(c) && 0 <= ext < MaxExtruders && MovesOnly(ops)
    decreases |ops|
  {
    if ops == [] then 0.0
    else
      MovesOnlyTail(ops);
      match ops[0]
      case MoveTo(x, y, z, speed, e3, len) =>
        var here := if DepositsFrom(c, ext, from, x, y, z, speed, e3) then e3 * len else 0.0;
        here + Deposited(c, ext, Point3(x, y, z), ops[1..])
  }

  /** Moves that request no negative extrusion never deposit a negative volume. */
  lemma {:induction false} DepositedNonNegative(c: Config, ext: int, from: Point3, ops: seq<Op>)
    requires ValidConfig(c) && 0 <= ext < MaxExtruders && MovesOnly(ops)
    requires forall i :: 0 <= i < |ops| ==> 0.0 <= ops[i].e3
    ensures 0.0 <= Deposited(c, ext, from, ops)
    decreases |ops|
  {
    if ops != [] {
      match ops[0]
      case MoveTo(x, y, z, speed, e3, len) =>
        DepositedCons(c, ext, from, ops, x, y, z, speed, e3, len);
        assert forall i :: 0 <= i < |ops[1..]| ==> 0.0 <= ops[1..][i].e3 by {
          forall i | 0 <= i < |ops[1..]| ensures 0.0 <= ops[1..][i].e3 {
            assert ops[1..][i] == ops[i + 1];
          }
        }
        DepositedNonNegative(c, ext, Point3(x, y, z), ops[1..]);
        NonNegativeProduct(e3, len);
    }
  }

  lemma NonNegativeProduct(a: real, b: real)
    requires 0.0 <= a && 0.0 <= b
    ensures 0.0 <= a * b
  {
  }

  lemma MovesOnlyTail(ops: seq<Op>)
    requires MovesOnly(ops) && ops != []
    ensures MovesOnly(ops[1..])
  {
    forall i | 0 <= i < |ops[1..]| ensures ops[1..][i].MoveTo? && 0.0 <= ops[1..][i].len {
      assert ops[1..][i] == ops[i + 1];
    }
  }

  /** A list of moves applied one after another. */
  function RunMoves(c: Config, s: State, ops: seq<Op>): (r: Step)
    requires ValidConfig(c) && ValidState(s) && MovesOnly(ops)
    ensures ValidState(r.st) && r.st.extruder == s.extruder
    decreases |ops|
  {
    if ops == [] then Unchanged(s)
    else
      MovesOnlyTail(ops);
      match ops[0]
      case MoveTo(x, y, z, speed, e3, len) =>
        var a := WriteMove(c, s, x, y, z, speed, e3, len);
        Chain(a, RunMoves(c, a.st, ops[1..]))
  }

  /** A session of moves completes, as `RunMoves` describes. */
  lemma {:induction false} RunOfMoves(c: Config, s: State, ops: seq<Op>)
    requires ValidConfig(c) && ValidState(s) && MovesOnly(ops)
    ensures Run(c, s, ops) == Completed(RunMoves(c, s, ops))
    decreases |ops|
  {
    if ops != [] {
      MovesOnlyTail(ops);
      match ops[0]
      case MoveTo(x, y, z, speed, e3, len) =>
        var a := WriteMove(c, s, x, y, z, speed, e3, len);
        assert Apply(c, s, ops[0]) == a;
        RunOfMoves(c, a.st, ops[1..]);
    }
  }

  /** One move: the state-level test `Extrudes` agrees with the list-level
      `DepositsFrom`, and the move ends at its target with the same extruder. */
  lemma MoveStep(c: Config, s: State, x: int, y: int, z: int, speed: int, e3: real, len: real)
    requires ValidConfig(c) && ValidState(s) && 0.0 <= len
    ensures var t := WriteMove(c, s, x, y, z, speed, e3, len).st;
      && t.pos == Point3(x, y, z) && t.extruder == s.extruder
      && TotalFilamentUsed(c, t, s.extruder) == TotalFilamentUsed(c, s, s.extruder)
           + (if DepositsFrom(c, s.extruder, s.pos, x, y, z, speed, e3) then e3 * len else 0.0)
  {
    MoveAddsVolume(c, s, x, y, z, speed, e3, len);
    assert Extrudes(c, s, x, y, z, speed, e3) == DepositsFrom(c, s.extruder, s.pos, x, y, z, speed, e3);
  }

  /** The active extruder's filament use after a list of moves grows by
      exactly the volume the list deposits. */
  lemma {:induction false} MovesDepositVolume(c: Config, s: State, ops: seq<Op>)
    requires ValidConfig(c) && ValidState(s) && MovesOnly(ops)
    ensures TotalFilamentUsed(c, RunMoves(c, s, ops).st, s.extruder)
         == TotalFilamentUsed(c, s, s.extruder) + Deposited(c, s.extruder, s.pos, ops)
    decreases |ops|
  {
    if ops != [] {
      MovesOnlyTail(ops);
      match ops[0]
      case MoveTo(x, y, z, speed, e3, len) =>
        var t := WriteMove(c, s, x, y, z, speed, e3, len).st;
        var u := RunMoves(c, t, ops[1..]).st;
        var here := if DepositsFrom(c, s.extruder, s.pos, x, y, z, speed, e3) then e3 * len else 0.0;
        var rest := Deposited(c, s.extruder, Point3(x, y, z), ops[1..]);
        MoveStep(c, s, x, y, z, speed, e3, len);
        MovesDepositVolume(c, t, ops[1..]);
        assert RunMoves(c, s, ops).st == u;
        DepositedCons(c, s.extruder, s.pos, ops, x, y, z, speed, e3, len);
        Accumulate(c, s, t, u, here, rest);
    }
  }

  /** `Deposited` of a list that starts with a move. */
  lemma DepositedCons(c: Config, ext: int, from: Point3, ops: seq<Op>,
                      x: int, y: int, z: int, speed: int, e3: real, len: real)
    requires ValidConfig(c) && 0 <= ext < MaxExtruders && MovesOnly(ops)
    requires ops != [] && ops[0] == MoveTo(x, y, z, speed, e3, len)
    ensures MovesOnly(ops[1..])
    ensures Deposited(c, ext, from, ops)
         == (if DepositsFrom(c, ext, from, x, y, z, speed, e3) then e3 * len else 0.0)
            + Deposited(c, ext, Point3(x, y, z), ops[1..])
  {
    MovesOnlyTail(ops);
  }

  lemma Accumulate(c: Config, s: State, t: State, u: State, here: real, rest: real)
    requires ValidConfig(c) && ValidState(s) && ValidState(t) && ValidState(u) && t.extruder == s.extruder
    requires TotalFilamentUsed(c, t, s.extruder) == TotalFilamentUsed(c, s, s.extruder) + here
    requires TotalFilamentUsed(c, u, t.extruder) == TotalFilamentUsed(c, t, t.extruder) + rest
    ensures TotalFilamentUsed(c, u, s.extruder) == TotalFilamentUsed(c, s, s.extruder) + (here + rest)
  {
  }

  /** A session of moves completes, and the active extruder's filament use
      grows by exactly the volume the move list deposits, whatever the flavor. */
  lemma RunDepositsVolume(c: Config, s: State, ops: seq<Op>)
    requires ValidConfig(c) && ValidState(s) && MovesOnly(ops)
    ensures Run(c, s, ops).Completed?
    ensures TotalFilamentUsed(c, Run(c, s, ops).step.st, s.extruder)
         == TotalFilamentUsed(c, s, s.extruder) + Deposited(c, s.extruder, s.pos, ops)
  {
    RunOfMoves(c, s, ops);
    MovesDepositVolume(c, s, ops);
  }
}
